=== FILE: README.md ===
# Image cropper core, modelled in Dafny

The WeChat mini-program image-cropper component shows one image on a canvas. It has two modes:

- In **image** mode, one finger pans the image and two fingers pinch-zoom it. A rotate action turns it by quarter turns, and a reset action re-centres it. After a pan or a rotation the image centre is clamped: an image that fits keeps its rotated extent inside the canvas, and one larger than the canvas is pinned by the lower bound of the clamp. A pinch changes only the scale and does not re-clamp the centre. The rotated half-extents are memoised in a small cache.
- In **crop** mode, a crop box with four corner handles is drawn over the image. A single finger on a handle resizes the box from that corner. A finger elsewhere inside the box drags it. The box never leaves the canvas.

Redraws go through a drop-not-queue throttle of 8 ms. Pan and pinch frames are the exception: they redraw at once.

The model is a set of pure step functions over immutable state records, with every number an exact `real`:

| module | file | what it holds |
|---|---|---|
| `Optional` | `optional.dfy` | `Option` (the widget's `null`) and `Result` (a rejected promise) |
| `Geometry` | `geometry.dfy` | points, rectangles, the clamp idiom, quarter-turn trigonometry, rotated half-extents |
| `Crop` | `crop.dfy` | crop-box engine: corner hit test, touch start/move/end, resize, drag, initial fit, export placement |
| `Image` | `image.dfy` | image engine: contain-fit centring, clamp with its memo cache, pan, pinch, rotate, reset |
| `Throttle` | `throttle.dfy` | the redraw throttle, with the clock reading as a parameter |
| `Render` | `render.dfy` | one redraw as an ordered list of drawing operations |
| `Cropper` | `cropper.dfy` | the component: mode routing of touch events, the public actions and their redraws, and the invariant every event keeps |

Host services are parameters:

- The square root used for pinch distances is a parameter `sqrt: real -> real`.
- The clock reading used by the throttle is a parameter `now: int` (milliseconds). An action whose redraws happen at two moments, such as a reset, takes one reading for each.
- The corner hit test compares squared distances, so it needs no square root.

Rotation is a natural number of degrees. Only quarter turns are reachable: loading an image sets 0, and each rotation adds 90 modulo 360. For quarter turns, |cos| and |sin| are exactly 0 or 1. Members that evaluate the trigonometry require `QuarterTurn(rotation)`. `Cropper.Invariant` shows that this holds in every state the component reaches.

## Behaviour worth knowing

- **Centring.** `_centerImage` is a contain-fit: `min((cw - padding)/iw, (ch - padding)/ih, 1)`, with the padding subtracted once from each side length (image-behavior.js:137-143).
- **Touch routing.** Touches are routed by the `mode` property alone (image-cropper.js:140-173). In crop mode, a two-finger start or move does nothing, but lifting a finger still runs the crop touch-end handler, which ends any one-finger drag or resize in progress (image-cropper.js:166-173, crop-behavior.js:263-270).
- **Corner order.** Corners are hit-tested and drawn in the order TL, TR, BL, BR (crop-behavior.js:141-146, 105-110).
- **Pinch.** The zoom multiplies the scale by the ratio of this frame's finger distance to the previous frame's, about the image centre. The result is clamped to the range from half the whole-canvas fit up to 5, with the floor winning. So for an image smaller than a tenth of the canvas on both sides, whose floor is above 5, every pinch frame lands on the floor, whether the fingers spread or close. The position is left as it was after a pinch (image-behavior.js:224-251).
- **Image clamp.** The clamp bounds the image by the canvas (image-behavior.js:258-285); the crop box and the image are independent.
- **Crop box size.** `_initCropBox` sizes the box from the unrotated drawn size. It places the box using the rotated half-extents (crop-behavior.js:35-46).
- **Which size bounds what.** Box moves and resizes are bounded by the declared `width`/`height` properties (crop-behavior.js:204). Initial placement, centring and the image clamp use the measured `canvasWidth`/`canvasHeight`. `Cropper.ConfigConsistent` states the assumption that the two agree.
- **Reset.** `_resetImage` initialises the crop box before it clears the rotation, so the box is placed with the old rotation (image-behavior.js:330-332). This is recorded under "Findings". `Cropper.Reset` follows the program; `Cropper.ResetCorrected` is the same action with the rotation cleared first.
  - From rotation 0 or 180, reset is idempotent: `Image.ResetIdempotentFromHalfTurns`.
  - From a quarter turn, a second reset moves the box: `Image.ResetNotIdempotentFromQuarterTurn`.
- **Deferred redraws.** `setData` applies its data at once and runs its callback after rendering. The image load callback redraws at once (image-behavior.js:107), and the crop box set-up redraws again from its own callback (crop-behavior.js:54-56). Reset redraws from two callbacks. Each of these is two throttled requests of the same final state, at two clock readings: `Cropper.RequestTwice`.
- **Cache key.** The memo key is rotation, scale and image size (image-behavior.js:263). It leaves out `boundaryPadding`, which the model takes as fixed configuration. `Image.CacheValid` holds the cache to exactly that key.

## Model

| member | source | states |
|---|---|---|
| Geometry.ClampTo | miniprogram/components/image-cropper/crop-behavior.js:246-247 | `max(lo, min(v, hi))` lies at or above `lo`, and at or below `hi` when the interval is non-empty. It is `v` inside the interval and `hi` past it. When the interval is empty, `lo` wins. |
| Geometry.ClampToIdempotent | miniprogram/components/image-cropper/image-behavior.js:266-267 | Clamping a clamped value again changes nothing. |
| Geometry.RotatedHalfExtents | miniprogram/components/image-cropper/image-behavior.js:271-275 | At 0 or 180 degrees the half-extents are half the drawn width and height plus the padding. At 90 or 270 the two axes swap. |
| Geometry.RotatedHalfExtentsMatchTrig | miniprogram/components/image-cropper/image-behavior.js:271-275 | The case split equals the source's `(w/2)\|cos\| + (h/2)\|sin\| + pad` form (and its mirror) at every quarter turn. |
| Geometry.RotatedCornersWithinHalfExtents | miniprogram/components/image-cropper/image-behavior.js:271-275 | Every corner of the image, turned by the canvas rotation, lands exactly the half-extent (less padding) away from the centre on each axis. The extents are those of the rotated bounding box. |
| Crop.FirstGrab | miniprogram/components/image-cropper/crop-behavior.js:148-156 | Returns nothing iff no corner in the list is within reach. Otherwise it returns a corner that is within reach and preceded by none that is. |
| Crop.DetectCorner | miniprogram/components/image-cropper/crop-behavior.js:138-157 | Null iff no corner is within 12 + 5 of the touch. Otherwise the corner it returns is within reach, and no corner earlier in TL, TR, BL, BR is. |
| Crop.CornersAreInside | miniprogram/components/image-cropper/crop-behavior.js:164-171 | The inside test `Crop.IsInsideCropBox` is the closed rectangle: every corner of a box with non-negative size counts as inside. |
| Crop.CropTouchStart | miniprogram/components/image-cropper/crop-behavior.js:177-197 | Any touch count other than one changes nothing. A corner hit wins over an inside hit and starts a resize on that corner. An inside hit starts a drag. A touch outside changes nothing. The box never changes. |
| Crop.Resize | miniprogram/components/image-cropper/crop-behavior.js:215-243 | On a canvas of at least 50 by 50, from a box at x, y >= 0, the result keeps x in [0, W - 50], width >= 50 and x + width <= W, and the same on y. A BR drag moves x and y only through the final clamp. A BR drag past the edge pins the box to that edge. |
| Crop.ResizeAnchorsOppositeCorner | miniprogram/components/image-cropper/crop-behavior.js:217-237 | Away from the size floor and the canvas edges, the opposite corner stays put and the dragged corner moves exactly with the finger. |
| Crop.Drag | miniprogram/components/image-cropper/crop-behavior.js:244-248 | The size is kept. A box no wider than the canvas stays within [0, W], and likewise vertically. An unclamped move is exact, and dragging past the far edge lands on W - width. |
| Crop.CropTouchMove | miniprogram/components/image-cropper/crop-behavior.js:202-258 | A move without exactly one touch, or without a session, changes nothing. An accepted move resizes or drags by the delta from the previous accepted touch and rebases the anchor to the current touch. |
| Crop.CropTouchEnd | miniprogram/components/image-cropper/crop-behavior.js:263-270 | Clears the corner, both flags and the anchor, whatever the prior state, and keeps the box. |
| Crop.CropHandlersPreserveInvariant | miniprogram/components/image-cropper/crop-behavior.js:177-270 | Start, move and end keep the box inside a canvas of at least 50 by 50, and keep the session flags consistent: at most one kind of session, a resize has a corner, and a session has an anchor. |
| Crop.DragFramesCompose | miniprogram/components/image-cropper/crop-behavior.js:206-254 | Because each frame rebases the anchor, two unclamped drag frames land where a single frame to the second touch lands. |
| Crop.InitCropBox | miniprogram/components/image-cropper/crop-behavior.js:24-57 | Without an image the box is untouched. Otherwise the box lies inside the canvas, both when the image fits and when it is too big. Its size is the drawn size capped by the canvas. |
| Crop.InitCropBoxHalfTurnInvariant | miniprogram/components/image-cropper/crop-behavior.js:31-46 | With an image, the previous box is irrelevant, and a half turn places the box as no turn does. |
| Crop.InitCropBoxFitsImage | miniprogram/components/image-cropper/crop-behavior.js:31-52 | At 0 or 180 degrees, an image lying wholly inside the canvas gets exactly its own bounds as the crop box. |
| Crop.SaveCroppedImage | miniprogram/components/image-cropper/crop-behavior.js:276-313 | The save as written is rejected exactly when no image is loaded. Otherwise the output has the box's exact size, not rounded to whole pixels (see Left out), and the image keeps its rotation and drawn size. |
| Crop.SaveCroppedImageIsDisplaced | miniprogram/components/image-cropper/crop-behavior.js:294-304 | In the export as written, every image point lands half a drawn width to the right of, and half a drawn height below, where it appears inside the box on screen. |
| Crop.SaveCroppedImageExample | miniprogram/components/image-cropper/crop-behavior.js:295-300 | A concrete case: the export centres the image at (310, 155), while on screen its centre is at (155, 77.5) from the box's corner. |
| Crop.SaveCroppedImageCorrected | miniprogram/components/image-cropper/crop-behavior.js:294-313 | The intended export has the same rejection, output size, rotation and drawn size as the save, with the image centre taken relative to the box. |
| Crop.SaveCroppedImageCorrectedMatchesScreen | miniprogram/components/image-cropper/crop-behavior.js:294-313 | With the intended placement, every image point is exported exactly at its on-screen position relative to the box. |
| Image.CenterImage | miniprogram/components/image-cropper/image-behavior.js:133-154 | Nothing happens without an image or before the canvas is measured. Otherwise the image is centred on the canvas at the largest scale of at most 1 at which it fits the canvas less the padding: some bound is tight. The cache is dropped. |
| Image.CenterImageExample | miniprogram/components/image-cropper/image-behavior.js:137-152 | A 1000 by 500 image in a 350 by 350 canvas with padding 40 gets scale 0.31 at (175, 175). |
| Image.ClampExtents | miniprogram/components/image-cropper/image-behavior.js:262-275 | The extents used by the clamp, cached or fresh, equal a fresh computation whenever the cache holds what its key computes. |
| Image.ClampCentre | miniprogram/components/image-cropper/image-behavior.js:277-278 | When the image fits, the centre ends in [hw, cw - hw] and [hh, ch - hh]. A centre already there is unchanged. |
| Image.ClampImagePosition | miniprogram/components/image-cropper/image-behavior.js:258-285 | Without an image nothing happens. Otherwise, with a valid cache, the result is the clamp with freshly computed extents: the rotated image stays inside the canvas whenever it fits. The cache stays valid and then matches the key. Scale, rotation and the touch session are unchanged. |
| Image.ClampImagePositionIdempotent | miniprogram/components/image-cropper/image-behavior.js:258-285 | Clamping twice is clamping once, whatever the cache held before. |
| Image.ClampImagePositionIgnoresValidCache | miniprogram/components/image-cropper/image-behavior.js:263-284 | A cache hit gives the same position as a fresh computation for the same key. |
| Image.ImageTouchStart | miniprogram/components/image-cropper/image-behavior.js:172-188 | No touches: nothing. Otherwise the touches become both the start and the last frame. One finger starts a pan and two start a pinch, while more leave the flags as they were. The placement is untouched. |
| Image.ClassifyMove | miniprogram/components/image-cropper/image-behavior.js:198-234 | A pan happens iff the pan flag is set, there is exactly one touch and the delta is at least 1 on some axis, and it carries that delta. A pinch happens iff the pinch flag is set, there are exactly two touches and the previous distance is non-zero, and it carries the distance ratio. |
| Image.PanImage | miniprogram/components/image-cropper/image-behavior.js:202-214 | The centre moves by the delta and is then clamped with the extents of the unchanged orientation. The frame becomes the last one, and the cache stays valid. |
| Image.PinchImage | miniprogram/components/image-cropper/image-behavior.js:234-242 | The scale is the previous scale times the ratio, clamped to [half the whole-canvas fit, 5]: a product at or below the floor gives the floor, one in between is kept, and (when the floor is below 5) one at or above 5 gives 5. When the floor is above 5, every frame gives the floor. The centre and rotation are untouched, and the cache is dropped. |
| Image.ImageTouchMove | miniprogram/components/image-cropper/image-behavior.js:194-253 | An ignored frame changes nothing. A pan frame pans and a pinch frame pinches. The image, rotation and gesture flags never change. |
| Image.JitterIsIgnored | miniprogram/components/image-cropper/image-behavior.js:202-207 | A pan frame under 1 on both axes changes nothing, not even the last frame. |
| Image.PinchSmallImageSnapsToFloor | miniprogram/components/image-cropper/image-behavior.js:231-238 | A 30 by 30 image on a 350 by 350 canvas has floor 35/6, above the ceiling of 5, and every pinch frame sets the scale to 35/6. |
| Image.PinchExample | miniprogram/components/image-cropper/image-behavior.js:224-240 | Fingers moving from 100 apart to 200 apart at scale 1 give scale 2, with the centre and rotation unchanged. |
| Image.ImageTouchEnd | miniprogram/components/image-cropper/image-behavior.js:290-303 | The session and both flags are cleared. The placement and cache stay. |
| Image.NextRotation | miniprogram/components/image-cropper/image-behavior.js:314 | The step stays below 360 and maps quarter turns to quarter turns. Modulo 360 it is exactly 90 ahead. |
| Image.FourTurnsAreIdentity | miniprogram/components/image-cropper/image-behavior.js:314 | Four steps bring every angle below 360 back to itself. |
| Image.RotateImage | miniprogram/components/image-cropper/image-behavior.js:308-320 | Without an image nothing changes. Otherwise the rotation advances a quarter turn, and the position is the clamp for the new orientation. The cache is left valid, and scale and the session are unchanged. |
| Image.RotateImageIsClampAfterTurn | miniprogram/components/image-cropper/image-behavior.js:313-317 | The rotation is exactly the turn followed by `_clampImagePosition` with the cache dropped. |
| Image.RotateKeepsClampedPosition | miniprogram/components/image-cropper/image-behavior.js:313-317 | A rotation leaves alone a centre that is already within the new orientation's bounds. |
| Image.HalfTurnKeepsExtents | miniprogram/components/image-cropper/image-behavior.js:271-275 | Two quarter turns leave the rotated half-extents unchanged. |
| Image.FourRotationsRestore | miniprogram/components/image-cropper/image-behavior.js:308-320 | Four rotations restore the whole placement when the centre is within bounds for both orientations. |
| Image.FourRotationsRestoreOrientation | miniprogram/components/image-cropper/image-behavior.js:308-320 | Four rotations always restore the rotation, the scale and the image. |
| Image.FourRotationsCanMoveCentre | miniprogram/components/image-cropper/image-behavior.js:313-317 | A centre in bounds only for the starting orientation is not restored: a 1000 by 500 image at scale 0.31 centred at (175, 100) in a 350 by 350 canvas comes back at (175, 155). |
| Image.ResetImage | miniprogram/components/image-cropper/image-behavior.js:325-336 | Without an image nothing changes. Otherwise the placement is `_centerImage`'s with rotation 0 and the cache dropped. The box is fitted with the old rotation and lies inside the canvas. |
| Image.ResetIdempotentFromHalfTurns | miniprogram/components/image-cropper/image-behavior.js:325-336 | From rotation 0 or 180, a second reset changes nothing. |
| Image.ResetNotIdempotentFromQuarterTurn | miniprogram/components/image-cropper/image-behavior.js:330-332 | From rotation 90 the reset box (40, 20) is not the image's bounds, and a second reset moves it to (20, 97.5). |
| Image.ResetImageCorrected | miniprogram/components/image-cropper/image-behavior.js:325-336 | The reset with the rotation cleared first: the placement is `_centerImage`'s at rotation 0, the cache is dropped, and the box is fitted for rotation 0 and lies inside the canvas. |
| Image.ResetImageCorrectedFitsImage | miniprogram/components/image-cropper/image-behavior.js:325-336 | When the canvas has been measured (non-zero width and height) and the image padding is not negative, the crop box after the corrected reset is exactly the drawn image's bounds, from any rotation. |
| Image.ResetImageCorrectedIdempotent | miniprogram/components/image-cropper/image-behavior.js:325-336 | The corrected reset is idempotent from every rotation. |
| Image.ResetImageCorrectedAgreesAtHalfTurns | miniprogram/components/image-cropper/image-behavior.js:325-336 | From rotation 0 or 180 the corrected reset equals the reset as written. |
| Throttle.Call | miniprogram/components/image-cropper/image-cropper.js:125-134 | A call runs iff strictly more than `wait` has passed since the last run. Only then is the last-run time set to the call's time. |
| Throttle.Executed | miniprogram/components/image-cropper/image-cropper.js:125-134 | Over a sequence of calls, the runs are at most the calls, and each happens at one of the call times. |
| Throttle.ExecutedAppend | miniprogram/components/image-cropper/image-cropper.js:127-133 | Dropped calls are never replayed: one more call adds at most itself to the runs. |
| Throttle.ExecutedSpaced | miniprogram/components/image-cropper/image-cropper.js:125-134 | Any two runs are more than `wait` apart, and the first is more than `wait` after the previous last run, in whatever order the clock readings come. |
| Throttle.DrawsAreSpaced | miniprogram/components/image-cropper/image-cropper.js:99-103 | With the 8 ms throttle, any two throttled redraws are more than 8 ms apart. |
| Render.DrawImage | miniprogram/components/image-cropper/image-behavior.js:32-70 | First the canvas border. Then the placeholder iff there is no image, else the image about its centre, with its rotation, at the scaled size. |
| Render.GridLines | miniprogram/components/image-cropper/crop-behavior.js:87-99 | Four grid lines: two vertical ones spanning the box's full height and two horizontal ones spanning its full width. They cut each side into three equal parts, and lie strictly inside a box of positive size. |
| Render.DrawCropBox | miniprogram/components/image-cropper/crop-behavior.js:62-119 | Nothing without an image. Otherwise: mask, box cut-out, outline, grid, then handles. All of it is overlay. |
| Render.DrawCanvas | miniprogram/components/image-cropper/image-cropper.js:108-118 | Nothing iff there is no context. Otherwise: clear, then the image layer, then in crop mode the overlay. Outside crop mode the list is exactly the clear and the image layer. The overlay appears iff the mode is `crop` and an image is loaded, and it always comes after the image layer. |
| Render.Handles | miniprogram/components/image-cropper/crop-behavior.js:101-116 | One handle of radius 12, the corner hit radius, is drawn on each corner, in the hit-test order, and every point of a drawn handle lies within that corner's hit zone. |
| Cropper.RequestDraw | miniprogram/components/image-cropper/image-cropper.js:125-134 | Before the canvas is ready nothing happens. Afterwards the full redraw happens iff the call is outside the throttle window. Only the throttle's clock moves. |
| Cropper.OnTouchStart | miniprogram/components/image-cropper/image-cropper.js:140-147 | In crop mode only the crop engine sees the touch. In any other mode only the image engine does. |
| Cropper.OnTouchMove | miniprogram/components/image-cropper/image-cropper.js:153-160 | Routed by mode. An accepted crop move requests a throttled redraw. A pan or pinch frame redraws at once. An ignored frame changes and draws nothing. |
| Cropper.OnTouchEnd | miniprogram/components/image-cropper/image-cropper.js:166-173 | Routed by mode to the crop or the image engine. |
| Cropper.SwitchMode | miniprogram/components/image-cropper/image-cropper.js:185-190 | The mode is set and one throttled redraw is requested, and nothing else changes. A redraw that happens shows the overlay iff the new mode is `crop` and an image is loaded. |
| Cropper.Rotate | miniprogram/components/image-cropper/image-behavior.js:308-320 | Without an image nothing happens. Otherwise the image is rotated and a throttled redraw is requested. |
| Cropper.RequestTwice | miniprogram/components/image-cropper/crop-behavior.js:54-56 | Two requests of one state draw it twice iff both leave the throttle window, and not at all iff both fall inside the window left by the last redraw; only the throttle's clock moves. |
| Cropper.Reset | miniprogram/components/image-cropper/image-behavior.js:325-336 | Without an image nothing happens. Otherwise the image is reset as the program does it, with the box placed before the rotation is cleared, and its two redraws, from the box set-up and the reset callback, are requested at their own clock readings. |
| Cropper.ResetCorrected | miniprogram/components/image-cropper/image-behavior.js:325-336 | The same action with the rotation cleared before the box is placed, with the same two redraw requests. |
| Cropper.ImageLoaded | miniprogram/components/image-cropper/image-behavior.js:97-108 | Loading installs the image at rotation 0, centred, with no cache and the box fitted to it. The callback's own redraw and the box set-up's later one are requested at their own clock readings. |
| Cropper.CropModeIgnoresPinchStart | miniprogram/components/image-cropper/image-cropper.js:140-147 | In crop mode, a two-finger start changes nothing. |
| Cropper.InitialSatisfiesInvariant | miniprogram/components/image-cropper/image-behavior.js:10-19 | The initial data satisfies the invariant. |
| Cropper.RequestDrawPreservesInvariant | miniprogram/components/image-cropper/image-cropper.js:125-134 | Redraw requests keep the invariant. |
| Cropper.RequestTwicePreservesInvariant | miniprogram/components/image-cropper/crop-behavior.js:54-56 | A pair of redraw requests keeps the invariant. |
| Cropper.TouchStartPreservesInvariant | miniprogram/components/image-cropper/image-cropper.js:140-147 | Touch start keeps the invariant: quarter-turn rotation, a valid cache, coherent sessions, and the box inside the canvas. |
| Cropper.TouchMovePreservesInvariant | miniprogram/components/image-cropper/image-cropper.js:153-160 | Touch move keeps the invariant. |
| Cropper.TouchEndPreservesInvariant | miniprogram/components/image-cropper/image-cropper.js:166-173 | Touch end keeps the invariant. |
| Cropper.ImageLoadedPreservesInvariant | miniprogram/components/image-cropper/image-behavior.js:97-108 | Loading an image keeps the invariant. |
| Cropper.ActionsPreserveInvariant | miniprogram/components/image-cropper/image-cropper.js:176-190 | Switching mode, rotating and resetting, as written or corrected, keep the invariant. |

## Findings

| source | as written | input that shows it | evidently intended | confidence | as-written member | corrected member |
|---|---|---|---|---|---|---|
| miniprogram/components/image-cropper/crop-behavior.js:295-300 | The export centre is `imageX - cropBox.x + drawnWidth / 2`, and likewise vertically. `imageX` is already the image's centre. | A 1000 by 500 image at scale 0.31 centred at (175, 175), with the box (20, 97.5, 310, 155) on the image. The export centres the image at (310, 155) instead of (155, 77.5). Three quarters of the output misses the image. | The export centre is `imageX - cropBox.x`, so the output shows what lies inside the box on screen. | high; not executed | Crop.SaveCroppedImage | Crop.SaveCroppedImageCorrected |
| miniprogram/components/image-cropper/image-behavior.js:330-332 | `_resetImage` calls `_initCropBox` while `imageRotation` still holds the old rotation, then sets it to 0. The box is placed with the quarter-turn extents of an image that is then drawn unrotated. | A 1000 by 500 image at rotation 90 in a 350 by 350 canvas with padding 40. The box is (40, 20, 310, 155), while the reset image covers (20, 97.5, 310, 155); a second reset moves the box there. | The rotation is cleared before the box is placed, so the box is the reset image's bounds and reset is idempotent. | high; not executed | Image.ResetNotIdempotentFromQuarterTurn | Image.ResetImageCorrected |

## Left out

- Image acquisition is I/O and asynchronous callbacks: `wx.chooseImage`, `wx.getImageInfo`, `createImage`, the error handler and the 5 s timeout (image-behavior.js:75-128). Only the state change of the load callback is modelled, as `Cropper.ImageLoaded`.
- Canvas set-up is platform plumbing: the selector query, the device-pixel-ratio scaling and the `detached` clean-up (image-cropper.js:30-94). Readiness is the `ready` flag, and the measured size is part of `Config`.
- Drawing styles are presentation, not geometry: colours, dashes, line widths, composite modes, fonts and the placeholder text.
- `_saveCroppedImage`'s offscreen canvas, `wx.canvasToTempFilePath` and its toasts are I/O. What is modelled is the rejection without an image and the export plan: the output size, the image's rotation and drawn size, and its centre on the output.
- Crop.SaveCroppedImage: the output size is the crop box's exact size. The source assigns it to the offscreen canvas's `width` and `height` (crop-behavior.js:287-288), which are whole pixels, so a box with a fractional size, as any drag or resize by fractional touch deltas leaves, gives an output truncated to whole pixels. The same holds for Crop.SaveCroppedImageCorrected.
- Cropper.OnTouchMove: a pan or pinch redraw is scheduled through `wx.nextTick` behind an `isMoving` guard. The model treats it as one immediate, unthrottled redraw. The guard only coalesces redraws within a tick.
- Throttle.Call: `Date.now()` becomes the `now` parameter.
- Floating point: numbers are exact reals, `Math.cos`/`Math.sin` at multiples of 90 degrees are exactly 0 or ±1, and `Math.hypot` is compared squared.
- Image.ClassifyMove: the square root is the `sqrt` parameter. A previous frame with fewer touches than the gesture needs would make the code throw before it changes anything. The model ignores such a frame.
- Image.ClampImagePosition: the cache key is a string of four numbers. The model compares the numbers themselves.
- Geometry.RotatedHalfExtents: defined only for quarter turns (`QuarterTurn`), the only rotations the component reaches.
- A `touches` value of `null` is modelled as an empty sequence, which every handler ignores like `null`.
- Console logging and toasts have no effect on state.
- The example page (miniprogram/pages/index/index.js) forwards button taps to the component and is not part of this model.
- Cropper.SwitchMode: the mode is taken as the value itself. The component reads it from `e.currentTarget.dataset.mode`, so a call with a bare string, as index.js:62 and index.js:73 make, throws before anything changes; the model does not follow that failure.
- Cropper.Rotate, Cropper.Reset, Cropper.ImageLoaded: each `setData` callback is taken to run after its own data is applied and before the next user action. Several taps applied before the first callback runs are not modelled: two quick rotations clamp once, at the final rotation, where the model clamps after each.

=== FILE: crop.dfy ===
/**
 * The crop-box engine (crop-behavior.js): corner hit-testing, the one-finger
 * gesture that either resizes the box from a corner or drags it whole, the
 * initial fit of the box to the image, and the export placement used when
 * saving. Every handler is a pure step over an explicit `CropState`.
 */
module Crop {
  import opened Optional
  import opened Geometry

  /** Radius of a drawn corner handle. */
  const CornerSize: real := 12.0
  /** Smallest edge a resize leaves the box with. */
  const MinSize: real := 50.0
  /** Extra slack around a handle that still counts as touching it. */
  const CornerTolerance: real := 5.0
  /** A touch grabs a corner when it is at most this far from it. */
  const HitRadius: real := CornerSize + CornerTolerance

  datatype Corner = TL | TR | BL | BR

  /** The order in which the corners are hit-tested (and drawn). */
  const CornerOrder: seq<Corner> := [TL, TR, BL, BR]

  /** Position of `c` in `CornerOrder`. */
  function Rank(c: Corner): nat {
    match c
    case TL => 0
    case TR => 1
    case BL => 2
    case BR => 3
  }

  function Opposite(c: Corner): Corner {
    match c
    case TL => BR
    case TR => BL
    case BL => TR
    case BR => TL
  }

  function CornerPoint(b: Rect, c: Corner): Point {
    match c
    case TL => Point(b.x, b.y)
    case TR => Point(b.x + b.width, b.y)
    case BL => Point(b.x, b.y + b.height)
    case BR => Point(b.x + b.width, b.y + b.height)
  }

  /** Euclidean distance from `p` to corner `c` is at most `HitRadius`, compared squared. */
  predicate Grabs(b: Rect, c: Corner, p: Point) {
    SquaredDistance(p, CornerPoint(b, c)) <= HitRadius * HitRadius
  }

  /** The first corner of `cs` that `p` grabs. */
  function FirstGrab(b: Rect, cs: seq<Corner>, p: Point): (r: Option<Corner>)
    ensures r.None? <==> forall i :: 0 <= i < |cs| ==> !Grabs(b, cs[i], p)
    ensures r.Some? ==> exists i :: 0 <= i < |cs| && cs[i] == r.value && Grabs(b, cs[i], p) &&
                                    forall j :: 0 <= j < i ==> !Grabs(b, cs[j], p)
    decreases |cs|
  {
    if |cs| == 0 then None
    else if Grabs(b, cs[0], p) then Some(cs[0])
    else
      var r := FirstGrab(b, cs[1..], p);
      assert r.Some? ==> exists i :: 1 <= i < |cs| && cs[i] == r.value && Grabs(b, cs[i], p) &&
                                     forall j :: 0 <= j < i ==> !Grabs(b, cs[j], p) by {
        if r.Some? {
          var i :| 0 <= i < |cs[1..]| && cs[1..][i] == r.value && Grabs(b, cs[1..][i], p) &&
                   forall j :: 0 <= j < i ==> !Grabs(b, cs[1..][j], p);
          assert forall j :: 1 <= j < i + 1 ==> cs[j] == cs[1..][j - 1];
        }
      }
      r
  }

  /**
   * `_detectCorner`: the first corner in the order TL, TR, BL, BR within
   * `HitRadius` of the touch, or none.
   */
  function DetectCorner(b: Rect, p: Point): (r: Option<Corner>)
    ensures r.None? <==> forall c :: !Grabs(b, c, p)
    ensures r.Some? ==> Grabs(b, r.value, p)
    ensures r.Some? ==> forall c :: Rank(c) < Rank(r.value) ==> !Grabs(b, c, p)
  {
    assert forall c :: CornerOrder[Rank(c)] == c;
    var r := FirstGrab(b, CornerOrder, p);
    assert r.Some? ==> forall c :: Rank(c) < Rank(r.value) ==> !Grabs(b, c, p) by {
      if r.Some? {
        var i :| 0 <= i < 4 && CornerOrder[i] == r.value && Grabs(b, CornerOrder[i], p) &&
                 forall j :: 0 <= j < i ==> !Grabs(b, CornerOrder[j], p);
        assert Rank(r.value) == i;
      }
    }
    r
  }

  /** `_isInsideCropBox`: the touch lies in the closed rectangle of the box. */
  predicate IsInsideCropBox(b: Rect, p: Point) {
    b.x <= p.x <= b.x + b.width && b.y <= p.y <= b.y + b.height
  }

  /** Each corner of a box with non-negative size counts as inside it. */
  lemma CornersAreInside(b: Rect, c: Corner)
    requires b.width >= 0.0 && b.height >= 0.0
    ensures IsInsideCropBox(b, CornerPoint(b, c))
  {
  }

  /** Crop-gesture state: the box and the one-finger session that edits it. */
  datatype CropState = CropState(
    box: Rect,
    activeCorner: Option<Corner>,
    isDraggingCrop: bool,
    isDraggingBox: bool,
    touchStart: Option<Point>)

  /** The behaviour's initial data. */
  const InitialCrop: CropState := CropState(Rect(0.0, 0.0, 0.0, 0.0), None, false, false, None)

  /** At most one kind of session; a resize has a corner; a session has an anchor touch. */
  predicate FlagsConsistent(s: CropState) {
    && !(s.isDraggingCrop && s.isDraggingBox)
    && (s.isDraggingCrop <==> s.activeCorner.Some?)
    && (s.touchStart.Some? <==> s.isDraggingCrop || s.isDraggingBox)
  }

  /**
   * `_onCropTouchStart`: a single touch on a corner handle starts a resize,
   * one elsewhere inside the box starts a drag; anything else is ignored.
   */
  function CropTouchStart(s: CropState, touches: seq<Point>): (r: CropState)
    ensures r.box == s.box
    ensures |touches| != 1 ==> r == s
    ensures |touches| == 1 && (exists c :: Grabs(s.box, c, touches[0])) ==>
              && r.isDraggingCrop && !r.isDraggingBox
              && r.activeCorner == DetectCorner(s.box, touches[0])
              && r.activeCorner.Some? && Grabs(s.box, r.activeCorner.value, touches[0])
              && r.touchStart == Some(touches[0])
    ensures |touches| == 1 && (forall c :: !Grabs(s.box, c, touches[0])) && IsInsideCropBox(s.box, touches[0]) ==>
              && r.isDraggingBox && !r.isDraggingCrop
              && r.activeCorner.None?
              && r.touchStart == Some(touches[0])
    ensures |touches| == 1 && (forall c :: !Grabs(s.box, c, touches[0])) && !IsInsideCropBox(s.box, touches[0]) ==>
              r == s
  {
    if |touches| != 1 then s
    else
      var p := touches[0];
      match DetectCorner(s.box, p)
      case Some(c) =>
        s.(activeCorner := Some(c), isDraggingCrop := true, isDraggingBox := false, touchStart := Some(p))
      case None =>
        if IsInsideCropBox(s.box, p) then
          s.(activeCorner := None, isDraggingCrop := false, isDraggingBox := true, touchStart := Some(p))
        else s
  }

  /**
   * Corner resize: the dragged corner's edges follow the finger, each size
   * is held at `MinSize` or more, then the box is pulled back inside the
   * `area` (the component's `width` and `height` properties).
   */
  function Resize(b: Rect, c: Corner, dx: real, dy: real, area: Size): (r: Rect)
    ensures area.width >= MinSize && area.height >= MinSize && b.x >= 0.0 && b.y >= 0.0 ==>
              && 0.0 <= r.x <= area.width - MinSize && r.width >= MinSize && r.x + r.width <= area.width
              && 0.0 <= r.y <= area.height - MinSize && r.height >= MinSize && r.y + r.height <= area.height
    ensures c == BR ==> r.x == Min(b.x, area.width - MinSize) && r.y == Min(b.y, area.height - MinSize)
    ensures c == BR && 0.0 <= b.x <= area.width - MinSize && b.x + b.width + dx >= area.width ==>
              r.x + r.width == area.width
    ensures c == BR && 0.0 <= b.y <= area.height - MinSize && b.y + b.height + dy >= area.height ==>
              r.y + r.height == area.height
  {
    var moved :=
      match c
      case TL => Rect(Max(0.0, b.x + dx), Max(0.0, b.y + dy), Max(MinSize, b.width - dx), Max(MinSize, b.height - dy))
      case TR => Rect(b.x, Max(0.0, b.y + dy), Max(MinSize, b.width + dx), Max(MinSize, b.height - dy))
      case BL => Rect(Max(0.0, b.x + dx), b.y, Max(MinSize, b.width - dx), Max(MinSize, b.height + dy))
      case BR => Rect(b.x, b.y, Max(MinSize, b.width + dx), Max(MinSize, b.height + dy));
    var x := Min(moved.x, area.width - MinSize);
    var y := Min(moved.y, area.height - MinSize);
    Rect(x, y, Min(moved.width, area.width - x), Min(moved.height, area.height - y))
  }

  /** The drag moves corner `c` by `(dx, dy)` without hitting a size floor or the canvas edge. */
  predicate FreeResize(b: Rect, c: Corner, dx: real, dy: real, area: Size) {
    match c
    case TL => b.x + dx >= 0.0 && b.width - dx >= MinSize && b.y + dy >= 0.0 && b.height - dy >= MinSize
    case TR => b.x + b.width + dx <= area.width && b.width + dx >= MinSize && b.y + dy >= 0.0 && b.height - dy >= MinSize
    case BL => b.x + dx >= 0.0 && b.width - dx >= MinSize && b.y + b.height + dy <= area.height && b.height + dy >= MinSize
    case BR => b.x + b.width + dx <= area.width && b.width + dx >= MinSize && b.y + b.height + dy <= area.height && b.height + dy >= MinSize
  }

  /**
   * Away from the limits a resize is a true corner drag: the opposite corner
   * stays put and the dragged corner moves exactly with the finger.
   */
  lemma ResizeAnchorsOppositeCorner(b: Rect, c: Corner, dx: real, dy: real, area: Size)
    requires WithinCanvas(b, area.width, area.height)
    requires FreeResize(b, c, dx, dy, area)
    ensures CornerPoint(Resize(b, c, dx, dy, area), Opposite(c)) == CornerPoint(b, Opposite(c))
    ensures CornerPoint(Resize(b, c, dx, dy, area), c) == Point(CornerPoint(b, c).x + dx, CornerPoint(b, c).y + dy)
  {
  }

  /** Whole-box drag: the size is kept and the position is clamped into the `area`. */
  function Drag(b: Rect, dx: real, dy: real, area: Size): (r: Rect)
    ensures r.width == b.width && r.height == b.height
    ensures b.width <= area.width ==> 0.0 <= r.x && r.x + r.width <= area.width
    ensures b.height <= area.height ==> 0.0 <= r.y && r.y + r.height <= area.height
    ensures 0.0 <= b.x + dx <= area.width - b.width ==> r.x == b.x + dx
    ensures 0.0 <= b.y + dy <= area.height - b.height ==> r.y == b.y + dy
    ensures b.width <= area.width && b.x + dx >= area.width - b.width ==> r.x == area.width - b.width
    ensures b.height <= area.height && b.y + dy >= area.height - b.height ==> r.y == area.height - b.height
  {
    Rect(ClampTo(b.x + dx, 0.0, area.width - b.width), ClampTo(b.y + dy, 0.0, area.height - b.height), b.width, b.height)
  }

  /** A move event is acted on: one finger, and a session was started on the box. */
  predicate MoveAccepted(s: CropState, touches: seq<Point>) {
    |touches| == 1 && s.touchStart.Some?
  }

  /**
   * `_onCropTouchMove`: the delta is measured from the previous accepted
   * touch, applied as a resize or a drag, and the anchor touch is rebased to
   * the current one.
   */
  function CropTouchMove(s: CropState, touches: seq<Point>, area: Size): (r: CropState)
    ensures !MoveAccepted(s, touches) ==> r == s
    ensures MoveAccepted(s, touches) ==>
              && r.touchStart == Some(touches[0])
              && r.activeCorner == s.activeCorner
              && r.isDraggingCrop == s.isDraggingCrop
              && r.isDraggingBox == s.isDraggingBox
    ensures MoveAccepted(s, touches) && s.isDraggingCrop && s.activeCorner.Some? ==>
              r.box == Resize(s.box, s.activeCorner.value, touches[0].x - s.touchStart.value.x,
                              touches[0].y - s.touchStart.value.y, area)
    ensures MoveAccepted(s, touches) && !(s.isDraggingCrop && s.activeCorner.Some?) && s.isDraggingBox ==>
              r.box == Drag(s.box, touches[0].x - s.touchStart.value.x, touches[0].y - s.touchStart.value.y, area)
    ensures MoveAccepted(s, touches) && !(s.isDraggingCrop && s.activeCorner.Some?) && !s.isDraggingBox ==>
              r.box == s.box
  {
    if !MoveAccepted(s, touches) then s
    else
      var p := touches[0];
      var dx := p.x - s.touchStart.value.x;
      var dy := p.y - s.touchStart.value.y;
      var box :=
        if s.isDraggingCrop && s.activeCorner.Some? then Resize(s.box, s.activeCorner.value, dx, dy, area)
        else if s.isDraggingBox then Drag(s.box, dx, dy, area)
        else s.box;
      s.(box := box, touchStart := Some(p))
  }

  /** `_onCropTouchEnd`: the session is discarded whatever it was. */
  function CropTouchEnd(s: CropState): (r: CropState)
    ensures r.box == s.box
    ensures r.activeCorner.None? && !r.isDraggingCrop && !r.isDraggingBox && r.touchStart.None?
  {
    s.(activeCorner := None, isDraggingCrop := false, isDraggingBox := false, touchStart := None)
  }

  /**
   * Every crop handler keeps a box that lies inside the area inside it, and
   * keeps the session flags consistent.
   */
  lemma CropHandlersPreserveInvariant(s: CropState, touches: seq<Point>, area: Size)
    requires area.width >= MinSize && area.height >= MinSize
    requires WithinCanvas(s.box, area.width, area.height) && FlagsConsistent(s)
    ensures var r := CropTouchStart(s, touches);
            WithinCanvas(r.box, area.width, area.height) && FlagsConsistent(r)
    ensures var r := CropTouchMove(s, touches, area);
            WithinCanvas(r.box, area.width, area.height) && FlagsConsistent(r)
    ensures var r := CropTouchEnd(s);
            WithinCanvas(r.box, area.width, area.height) && FlagsConsistent(r)
  {
  }

  /**
   * Because every accepted move rebases the anchor, two drag frames land
   * where one frame straight to the second touch would, as long as neither
   * frame is clamped.
   */
  lemma DragFramesCompose(s: CropState, p1: Point, p2: Point, area: Size)
    requires s.isDraggingBox && !s.isDraggingCrop && s.touchStart.Some?
    requires 0.0 <= s.box.x + (p1.x - s.touchStart.value.x) <= area.width - s.box.width
    requires 0.0 <= s.box.y + (p1.y - s.touchStart.value.y) <= area.height - s.box.height
    requires 0.0 <= s.box.x + (p2.x - s.touchStart.value.x) <= area.width - s.box.width
    requires 0.0 <= s.box.y + (p2.y - s.touchStart.value.y) <= area.height - s.box.height
    ensures CropTouchMove(CropTouchMove(s, [p1], area), [p2], area) == CropTouchMove(s, [p2], area)
  {
  }

  /**
   * `_initCropBox`: with an image loaded, the box is placed on the image's
   * rotated bounds (but keeps the unrotated drawn size), its position clamped
   * into the canvas first and its size clamped second. Without an image the
   * box is left alone.
   */
  function InitCropBox(image: Option<ImageSize>, t: Transform, canvas: Size, box: Rect): (r: Rect)
    requires image.Some? ==> QuarterTurn(t.rotation)
    ensures image.None? ==> r == box
    ensures image.Some? ==> WithinCanvas(r, canvas.width, canvas.height)
    ensures image.Some? ==> r.width <= canvas.width && r.height <= canvas.height
    ensures image.Some? ==> r.width == Min(image.value.width * t.scale, canvas.width)
    ensures image.Some? ==> r.height == Min(image.value.height * t.scale, canvas.height)
  {
    match image
    case None => box
    case Some(img) =>
      var w := img.width * t.scale;
      var h := img.height * t.scale;
      var e := RotatedHalfExtents(w, h, t.rotation, 0.0);
      var x := Max(0.0, Min(t.x - e.halfWidth, canvas.width - w));
      var y := Max(0.0, Min(t.y - e.halfHeight, canvas.height - h));
      Rect(x, y, Min(w, canvas.width), Min(h, canvas.height))
  }

  /**
   * With an image loaded the previous box is irrelevant, and a half turn
   * places the box exactly as no turn does.
   */
  lemma InitCropBoxHalfTurnInvariant(image: ImageSize, t: Transform, canvas: Size, b1: Rect, b2: Rect)
    requires t.rotation == 0 || t.rotation == 180
    ensures InitCropBox(Some(image), t, canvas, b1) == InitCropBox(Some(image), t.(rotation := 0), canvas, b2)
  {
    var w, h := image.width * t.scale, image.height * t.scale;
    assert RotatedHalfExtents(w, h, t.rotation, 0.0) == RotatedHalfExtents(w, h, 0, 0.0);
  }

  /** The rectangle an unrotated image covers on screen. */
  function ImageBounds(image: ImageSize, t: Transform): Rect {
    var w := image.width * t.scale;
    var h := image.height * t.scale;
    Rect(t.x - w / 2.0, t.y - h / 2.0, w, h)
  }

  /**
   * At rotation 0 or 180, an image lying wholly inside the canvas gets a
   * crop box equal to its own bounds.
   */
  lemma InitCropBoxFitsImage(image: ImageSize, t: Transform, canvas: Size, box: Rect)
    requires t.rotation == 0 || t.rotation == 180
    requires WithinCanvas(ImageBounds(image, t), canvas.width, canvas.height)
    ensures InitCropBox(Some(image), t, canvas, box) == ImageBounds(image, t)
  {
    var w, h := image.width * t.scale, image.height * t.scale;
    var b := ImageBounds(image, t);
    assert b == Rect(t.x - w / 2.0, t.y - h / 2.0, w, h);
    assert RotatedHalfExtents(w, h, t.rotation, 0.0) == HalfExtents(w / 2.0, h / 2.0);
    assert 0.0 <= b.x <= canvas.width - w;
    assert 0.0 <= b.y <= canvas.height - h;
  }

  datatype SaveError = ImageNotReady

  /** What the save asks an offscreen canvas of the crop box's size to draw. */
  datatype ExportPlan = ExportPlan(output: Size, centre: Point, rotation: nat, drawWidth: real, drawHeight: real)

  /**
   * `_saveCroppedImage` as written: rejected without an image; otherwise
   * the image is drawn centred on `imageX - box.x` plus half the drawn
   * width (and likewise vertically), although `imageX` is already the
   * image's centre.
   */
  function SaveCroppedImage(box: Rect, image: Option<ImageSize>, t: Transform): (r: Result<ExportPlan, SaveError>)
    ensures r.Err? <==> image.None?
    ensures r.Ok? ==> r.value.output == Size(box.width, box.height) && r.value.rotation == t.rotation
    ensures r.Ok? ==> r.value.drawWidth == image.value.width * t.scale &&
                      r.value.drawHeight == image.value.height * t.scale
  {
    match image
    case None => Err(ImageNotReady)
    case Some(img) =>
      var w := img.width * t.scale;
      var h := img.height * t.scale;
      Ok(ExportPlan(Size(box.width, box.height), Point(t.x - box.x + w / 2.0, t.y - box.y + h / 2.0), t.rotation, w, h))
  }

  /**
   * The export as written lands every image point half a drawn size right
   * of and below where it appears inside the crop box on screen.
   */
  lemma SaveCroppedImageIsDisplaced(box: Rect, image: ImageSize, t: Transform, p: Point)
    requires QuarterTurn(t.rotation)
    ensures var plan := SaveCroppedImage(box, Some(image), t).value;
            var exported := Place(plan.centre, t.rotation, p);
            var onScreen := Place(Point(t.x, t.y), t.rotation, p);
            && exported.x - (onScreen.x - box.x) == image.width * t.scale / 2.0
            && exported.y - (onScreen.y - box.y) == image.height * t.scale / 2.0
  {
  }

  /**
   * A concrete case: a 1000 by 500 image fitted at scale 0.31 in the middle
   * of a 350 by 350 canvas, with the crop box on the image's bounds. On
   * screen the image centre is (155, 77.5) from the box's corner; the export
   * centres it at (310, 155), so three quarters of the output is empty.
   */
  lemma SaveCroppedImageExample()
    ensures var t := Transform(175.0, 175.0, 0.31, 0);
            var box := Rect(20.0, 97.5, 310.0, 155.0);
            && box == ImageBounds(Size(1000.0, 500.0), t)
            && SaveCroppedImage(box, Some(Size(1000.0, 500.0)), t).value.centre == Point(310.0, 155.0)
            && Point(t.x - box.x, t.y - box.y) == Point(155.0, 77.5)
  {
  }

  /**
   * The export placement the code evidently intends: the image centre taken
   * relative to the crop box, so that the output shows exactly what lies
   * inside the box on screen.
   */
  function SaveCroppedImageCorrected(box: Rect, image: Option<ImageSize>, t: Transform): (r: Result<ExportPlan, SaveError>)
    ensures r.Err? <==> image.None?
    ensures r.Ok? ==> r.value.output == Size(box.width, box.height) && r.value.rotation == t.rotation
    ensures r.Ok? ==> r.value.drawWidth == image.value.width * t.scale &&
                      r.value.drawHeight == image.value.height * t.scale
  {
    match image
    case None => Err(ImageNotReady)
    case Some(img) =>
      Ok(ExportPlan(Size(box.width, box.height), Point(t.x - box.x, t.y - box.y), t.rotation,
                    img.width * t.scale, img.height * t.scale))
  }

  /**
   * With the corrected placement every image point is exported exactly at
   * its on-screen position relative to the crop box's top-left corner.
   */
  lemma SaveCroppedImageCorrectedMatchesScreen(box: Rect, image: ImageSize, t: Transform, p: Point)
    requires QuarterTurn(t.rotation)
    ensures var plan := SaveCroppedImageCorrected(box, Some(image), t).value;
            var onScreen := Place(Point(t.x, t.y), t.rotation, p);
            Place(plan.centre, t.rotation, p) == Point(onScreen.x - box.x, onScreen.y - box.y)
  {
  }
}

=== FILE: cropper.dfy ===
/**
 * The component (image-cropper.js): the mode, the two gesture engines, the
 * readiness of the canvas and the redraw throttle, with the touch events
 * routed by mode and every public action followed by its redraw. An event
 * yields the new widget and the operations drawn in response.
 */
module Cropper {
  import opened Optional
  import opened Geometry
  import Crop
  import Image
  import Throttle
  import Render

  datatype Widget = Widget(
    cfg: Config,
    mode: string,
    img: Image.ImageState,
    crop: Crop.CropState,
    /** Whether the canvas context exists (set up once the layout is measured). */
    ready: bool,
    throttle: Throttle.Throttle)

  /** The widget after an event, and what was drawn in response (possibly nothing). */
  datatype Frame = Frame(w: Widget, drawn: seq<Render.DrawOp>)

  /** The component's initial data, in image mode with the 8 ms draw throttle. */
  function Initial(cfg: Config, ready: bool): Widget {
    Widget(cfg, "image", Image.InitialImage, Crop.InitialCrop, ready, Throttle.NewThrottle(Throttle.DrawWait))
  }

  /** A full redraw of the current state. */
  function Draw(w: Widget): seq<Render.DrawOp> {
    Render.DrawCanvas(w.ready, w.mode, w.cfg, w.img, w.crop.box)
  }

  /**
   * `throttledDraw()` at time `now`: before the canvas is ready there is no
   * throttle yet and nothing happens; afterwards the redraw happens only
   * outside the throttle window, and only the throttle's clock moves.
   */
  function RequestDraw(w: Widget, now: int): (f: Frame)
    ensures !w.ready ==> f == Frame(w, [])
    ensures f.w == w.(throttle := f.w.throttle)
    ensures w.ready ==> (f.drawn != [] <==> now - w.throttle.lastExecuteTime > w.throttle.wait)
    ensures f.drawn != [] ==> f.drawn == Draw(w) && f.w.throttle.lastExecuteTime == now
    ensures f.drawn == [] ==> f.w == w
  {
    if !w.ready then Frame(w, [])
    else
      var o := Throttle.Call(w.throttle, now);
      Frame(w.(throttle := o.next), if o.fired then Draw(w) else [])
  }

  /**
   * Two redraw requests of an unchanged state, at `t1` and then at `t2`:
   * the state is drawn twice only when both requests leave the throttle
   * window, and not at all when both fall inside the window left by the
   * last redraw.
   */
  function RequestTwice(w: Widget, t1: int, t2: int): (f: Frame)
    ensures !w.ready ==> f == Frame(w, [])
    ensures f.w == w.(throttle := f.w.throttle)
    ensures f.drawn == [] || f.drawn == Draw(w) || f.drawn == Draw(w) + Draw(w)
    ensures w.ready ==>
              (f.drawn == Draw(w) + Draw(w) <==>
                 t1 - w.throttle.lastExecuteTime > w.throttle.wait && t2 - t1 > w.throttle.wait)
    ensures w.ready ==>
              (f.drawn == [] <==>
                 t1 - w.throttle.lastExecuteTime <= w.throttle.wait && t2 - w.throttle.lastExecuteTime <= w.throttle.wait)
  {
    var f1 := RequestDraw(w, t1);
    var f2 := RequestDraw(f1.w, t2);
    assert Draw(f1.w) == Draw(w);
    assert w.ready ==> |Draw(w)| >= 3;
    Frame(f2.w, f1.drawn + f2.drawn)
  }

  /** `_onTouchStart`: routed by mode; nothing is drawn. */
  function OnTouchStart(w: Widget, touches: seq<Point>): (r: Widget)
    ensures w.mode == Render.CropMode ==> r == w.(crop := Crop.CropTouchStart(w.crop, touches))
    ensures w.mode != Render.CropMode ==> r == w.(img := Image.ImageTouchStart(w.img, touches))
  {
    if w.mode == Render.CropMode then w.(crop := Crop.CropTouchStart(w.crop, touches))
    else w.(img := Image.ImageTouchStart(w.img, touches))
  }

  /**
   * `_onTouchMove`: in crop mode an accepted move edits the box (bounded by
   * the declared width and height) and requests a throttled redraw; in image
   * mode a pan or pinch frame redraws at once, unthrottled.
   */
  function OnTouchMove(w: Widget, touches: seq<Point>, sqrt: real -> real, now: int): (f: Frame)
    requires QuarterTurn(w.img.t.rotation)
    ensures w.mode == Render.CropMode && !Crop.MoveAccepted(w.crop, touches) ==> f == Frame(w, [])
    ensures w.mode == Render.CropMode && Crop.MoveAccepted(w.crop, touches) ==>
              f == RequestDraw(w.(crop := Crop.CropTouchMove(w.crop, touches, Size(w.cfg.width, w.cfg.height))), now)
    ensures w.mode != Render.CropMode && Image.ClassifyMove(w.img, touches, sqrt).Ignored? ==> f == Frame(w, [])
    ensures w.mode != Render.CropMode && !Image.ClassifyMove(w.img, touches, sqrt).Ignored? ==>
              && f.w == w.(img := Image.ImageTouchMove(w.cfg, w.img, touches, sqrt))
              && f.drawn == Draw(f.w)
  {
    if w.mode == Render.CropMode then
      if Crop.MoveAccepted(w.crop, touches) then
        RequestDraw(w.(crop := Crop.CropTouchMove(w.crop, touches, Size(w.cfg.width, w.cfg.height))), now)
      else Frame(w, [])
    else if Image.ClassifyMove(w.img, touches, sqrt).Ignored? then Frame(w, [])
    else
      var w' := w.(img := Image.ImageTouchMove(w.cfg, w.img, touches, sqrt));
      Frame(w', Draw(w'))
  }

  /** `_onTouchEnd`: routed by mode; nothing is drawn. */
  function OnTouchEnd(w: Widget): (r: Widget)
    ensures w.mode == Render.CropMode ==> r == w.(crop := Crop.CropTouchEnd(w.crop))
    ensures w.mode != Render.CropMode ==> r == w.(img := Image.ImageTouchEnd(w.img))
  {
    if w.mode == Render.CropMode then w.(crop := Crop.CropTouchEnd(w.crop))
    else w.(img := Image.ImageTouchEnd(w.img))
  }

  /** `switchMode`: the mode changes, then a throttled redraw shows or hides the overlay. */
  function SwitchMode(w: Widget, mode: string, now: int): (f: Frame)
    ensures f == RequestDraw(w.(mode := mode), now)
    ensures f.w.mode == mode && f.w.cfg == w.cfg && f.w.img == w.img && f.w.crop == w.crop && f.w.ready == w.ready
    ensures f.drawn != [] ==>
              ((exists k :: 0 <= k < |f.drawn| && Render.IsOverlay(f.drawn[k])) <==> mode == Render.CropMode && w.img.image.Some?)
  {
    RequestDraw(w.(mode := mode), now)
  }

  /** `rotateImage`: without an image nothing changes; otherwise rotate, re-clamp and request a redraw. */
  function Rotate(w: Widget, now: int): (f: Frame)
    requires QuarterTurn(w.img.t.rotation)
    ensures w.img.image.None? ==> f == Frame(w, [])
    ensures w.img.image.Some? ==> f == RequestDraw(w.(img := Image.RotateImage(w.cfg, w.img)), now)
  {
    if w.img.image.None? then Frame(w, [])
    else RequestDraw(w.(img := Image.RotateImage(w.cfg, w.img)), now)
  }

  /**
   * `resetImage`: without an image nothing changes. Otherwise the image is
   * reset and the crop box re-initialised, in the program's order (the box
   * is placed before the rotation is cleared); the box set-up and the reset
   * each request a redraw once the data has been applied, at `t1` and then
   * at `t2`.
   */
  function Reset(w: Widget, t1: int, t2: int): (f: Frame)
    requires QuarterTurn(w.img.t.rotation)
    ensures w.img.image.None? ==> f == Frame(w, [])
    ensures w.img.image.Some? ==>
              var r := Image.ResetImage(w.cfg, w.img, w.crop.box);
              f == RequestTwice(w.(img := r.0, crop := w.crop.(box := r.1)), t1, t2)
  {
    if w.img.image.None? then Frame(w, [])
    else
      var r := Image.ResetImage(w.cfg, w.img, w.crop.box);
      RequestTwice(w.(img := r.0, crop := w.crop.(box := r.1)), t1, t2)
  }

  /** The reset with the rotation cleared before the box is placed, with the same two redraw requests. */
  function ResetCorrected(w: Widget, t1: int, t2: int): (f: Frame)
    ensures w.img.image.None? ==> f == Frame(w, [])
    ensures w.img.image.Some? ==>
              var r := Image.ResetImageCorrected(w.cfg, w.img, w.crop.box);
              f == RequestTwice(w.(img := r.0, crop := w.crop.(box := r.1)), t1, t2)
  {
    if w.img.image.None? then Frame(w, [])
    else
      var r := Image.ResetImageCorrected(w.cfg, w.img, w.crop.box);
      RequestTwice(w.(img := r.0, crop := w.crop.(box := r.1)), t1, t2)
  }

  /**
   * The state part of the image's load callback: the image is installed at
   * rotation 0 with no cache, centred, and the crop box fitted to it. The
   * callback then requests a redraw at once, at `now`, and the box set-up
   * requests another once its data has been applied, at `later`.
   */
  function ImageLoaded(w: Widget, image: ImageSize, now: int, later: int): (f: Frame)
    ensures f.w.img.image == Some(image) && f.w.img.t.rotation == 0 && f.w.img.cache.None?
    ensures f.w.img.t == Image.CenterImage(w.cfg, w.img.(image := Some(image), t := w.img.t.(rotation := 0))).t
    ensures f.w.crop.box == Crop.InitCropBox(Some(image), f.w.img.t, Size(w.cfg.canvasWidth, w.cfg.canvasHeight), w.crop.box)
    ensures f == RequestTwice(f.w.(throttle := w.throttle), now, later)
  {
    var installed := w.img.(image := Some(image), t := w.img.t.(rotation := 0), cache := None);
    var img := Image.CenterImage(w.cfg, installed);
    var box := Crop.InitCropBox(img.image, img.t, Size(w.cfg.canvasWidth, w.cfg.canvasHeight), w.crop.box);
    RequestTwice(w.(img := img, crop := w.crop.(box := box)), now, later)
  }

  /** In crop mode a two-finger start leaves everything as it was: only the image engine pinches. */
  lemma CropModeIgnoresPinchStart(w: Widget, p: Point, q: Point)
    requires w.mode == Render.CropMode
    ensures OnTouchStart(w, [p, q]) == w
  {
  }

  /** The declared size matches the measured canvas, and is large enough for a minimum-size box. */
  predicate ConfigConsistent(cfg: Config) {
    && cfg.canvasWidth == cfg.width && cfg.canvasHeight == cfg.height
    && cfg.width >= Crop.MinSize && cfg.height >= Crop.MinSize
  }

  /**
   * What every event keeps: a quarter-turn rotation, a memo cache that
   * matches its key, a coherent touch session in each engine, and a crop box
   * inside the canvas.
   */
  predicate Invariant(w: Widget) {
    && QuarterTurn(w.img.t.rotation)
    && Image.CacheValid(w.cfg, w.img)
    && Image.TouchesConsistent(w.img)
    && Crop.FlagsConsistent(w.crop)
    && WithinCanvas(w.crop.box, w.cfg.width, w.cfg.height)
  }

  lemma InitialSatisfiesInvariant(cfg: Config, ready: bool)
    requires ConfigConsistent(cfg)
    ensures Invariant(Initial(cfg, ready))
  {
  }

  /** Redraw requests touch nothing but the throttle, so they keep the invariant. */
  lemma RequestDrawPreservesInvariant(w: Widget, now: int)
    requires Invariant(w)
    ensures Invariant(RequestDraw(w, now).w)
  {
  }

  lemma TouchStartPreservesInvariant(w: Widget, touches: seq<Point>)
    requires ConfigConsistent(w.cfg) && Invariant(w)
    ensures Invariant(OnTouchStart(w, touches))
  {
    if w.mode == Render.CropMode {
      Crop.CropHandlersPreserveInvariant(w.crop, touches, Size(w.cfg.width, w.cfg.height));
    } else {
      var img := Image.ImageTouchStart(w.img, touches);
      assert img.t == w.img.t && img.cache == w.img.cache && img.image == w.img.image;
      assert Image.TouchesConsistent(img);
    }
  }

  lemma TouchMovePreservesInvariant(w: Widget, touches: seq<Point>, sqrt: real -> real, now: int)
    requires ConfigConsistent(w.cfg) && Invariant(w)
    ensures Invariant(OnTouchMove(w, touches, sqrt, now).w)
  {
    if w.mode == Render.CropMode {
      Crop.CropHandlersPreserveInvariant(w.crop, touches, Size(w.cfg.width, w.cfg.height));
      RequestDrawPreservesInvariant(w.(crop := Crop.CropTouchMove(w.crop, touches, Size(w.cfg.width, w.cfg.height))), now);
    }
  }

  lemma TouchEndPreservesInvariant(w: Widget)
    requires ConfigConsistent(w.cfg) && Invariant(w)
    ensures Invariant(OnTouchEnd(w))
  {
    if w.mode == Render.CropMode {
      Crop.CropHandlersPreserveInvariant(w.crop, [], Size(w.cfg.width, w.cfg.height));
    } else {
      var img := Image.ImageTouchEnd(w.img);
      assert img.t == w.img.t && img.cache == w.img.cache && img.image == w.img.image;
    }
  }

  /** Two redraw requests touch nothing but the throttle either. */
  lemma RequestTwicePreservesInvariant(w: Widget, t1: int, t2: int)
    requires Invariant(w)
    ensures Invariant(RequestTwice(w, t1, t2).w)
  {
  }

  /** Loading an image establishes the invariant from any touch session that already satisfies it. */
  lemma ImageLoadedPreservesInvariant(w: Widget, image: ImageSize, now: int, later: int)
    requires ConfigConsistent(w.cfg) && Invariant(w)
    ensures Invariant(ImageLoaded(w, image, now, later).w)
  {
    var installed := w.img.(image := Some(image), t := w.img.t.(rotation := 0), cache := None);
    var img := Image.CenterImage(w.cfg, installed);
    var box := Crop.InitCropBox(img.image, img.t, Size(w.cfg.canvasWidth, w.cfg.canvasHeight), w.crop.box);
    RequestTwicePreservesInvariant(w.(img := img, crop := w.crop.(box := box)), now, later);
  }

  lemma ActionsPreserveInvariant(w: Widget, mode: string, now: int, later: int)
    requires ConfigConsistent(w.cfg) && Invariant(w)
    ensures Invariant(SwitchMode(w, mode, now).w)
    ensures Invariant(Rotate(w, now).w)
    ensures Invariant(Reset(w, now, later).w)
    ensures Invariant(ResetCorrected(w, now, later).w)
  {
    RequestDrawPreservesInvariant(w.(mode := mode), now);
    if w.img.image.Some? {
      RequestDrawPreservesInvariant(w.(img := Image.RotateImage(w.cfg, w.img)), now);
      var r := Image.ResetImage(w.cfg, w.img, w.crop.box);
      RequestTwicePreservesInvariant(w.(img := r.0, crop := w.crop.(box := r.1)), now, later);
      var c := Image.ResetImageCorrected(w.cfg, w.img, w.crop.box);
      RequestTwicePreservesInvariant(w.(img := c.0, crop := w.crop.(box := c.1)), now, later);
    }
  }
}

=== FILE: geometry.dfy ===
/**
 * Plane geometry shared by the crop-box and image engines of the image
 * cropper. Coordinates are logical canvas pixels, modelled as exact reals.
 * Rotations are whole degrees; the widget only ever produces quarter turns,
 * for which |cos| and |sin| are exactly 0 or 1.
 */
module Geometry {

  datatype Point = Point(x: real, y: real)

  /** A width/height pair. */
  datatype Size = Size(width: real, height: real)

  /** Intrinsic size of a decoded image: a decoded image is never empty. */
  type ImageSize = s: Size | s.width > 0.0 && s.height > 0.0 witness Size(1.0, 1.0)

  /** An axis-aligned rectangle given by its top-left corner and its size. */
  datatype Rect = Rect(x: real, y: real, width: real, height: real)

  /** Image placement: centre `(x, y)`, zoom factor and rotation in degrees. */
  datatype Transform = Transform(x: real, y: real, scale: real, rotation: nat)

  /**
   * Component properties and measured canvas size. `width`/`height` are the
   * declared properties (default 350) that bound crop-box moves and resizes;
   * `canvasWidth`/`canvasHeight` are the rendered size measured when the
   * canvas is set up, used by fitting, image clamping and crop-box setup.
   */
  datatype Config = Config(
    width: real,
    height: real,
    canvasWidth: real,
    canvasHeight: real,
    boundaryPadding: real,
    imagePadding: real)

  function Min(a: real, b: real): (r: real)
    ensures r <= a && r <= b
    ensures r == a || r == b
  {
    if a <= b then a else b
  }

  function Max(a: real, b: real): (r: real)
    ensures r >= a && r >= b
    ensures r == a || r == b
  {
    if a >= b then a else b
  }

  function Abs(a: real): (r: real)
    ensures r >= 0.0
    ensures r == a || r == -a
  {
    if a < 0.0 then -a else a
  }

  /**
   * `Math.max(lo, Math.min(v, hi))`, the clamp idiom used throughout the
   * widget. When the interval is empty (`hi < lo`) the lower bound wins.
   */
  function ClampTo(v: real, lo: real, hi: real): (r: real)
    ensures lo <= r
    ensures lo <= hi ==> r <= hi
    ensures lo <= v <= hi ==> r == v
    ensures lo <= hi <= v ==> r == hi
    ensures v <= lo ==> r == lo
    ensures hi < lo ==> r == lo
  {
    Max(lo, Min(v, hi))
  }

  lemma ClampToIdempotent(v: real, lo: real, hi: real)
    ensures ClampTo(ClampTo(v, lo, hi), lo, hi) == ClampTo(v, lo, hi)
  {
  }

  function SquaredDistance(p: Point, q: Point): (d: real)
    ensures d >= 0.0
  {
    (p.x - q.x) * (p.x - q.x) + (p.y - q.y) * (p.y - q.y)
  }

  /** True when `r` lies entirely inside the canvas `[0, w] x [0, h]`. */
  predicate WithinCanvas(r: Rect, w: real, h: real) {
    0.0 <= r.x && 0.0 <= r.y && r.x + r.width <= w && r.y + r.height <= h
  }

  predicate QuarterTurn(degrees: int) {
    degrees == 0 || degrees == 90 || degrees == 180 || degrees == 270
  }

  /** cos of a quarter turn, exactly. */
  function Cos(degrees: int): real
    requires QuarterTurn(degrees)
  {
    if degrees == 0 then 1.0 else if degrees == 180 then -1.0 else 0.0
  }

  /** sin of a quarter turn, exactly. */
  function Sin(degrees: int): real
    requires QuarterTurn(degrees)
  {
    if degrees == 90 then 1.0 else if degrees == 270 then -1.0 else 0.0
  }

  /** The point a canvas `translate(origin)` then `rotate(degrees)` sends the local point `p` to. */
  function Place(origin: Point, degrees: int, p: Point): Point
    requires QuarterTurn(degrees)
  {
    Point(origin.x + p.x * Cos(degrees) - p.y * Sin(degrees),
          origin.y + p.x * Sin(degrees) + p.y * Cos(degrees))
  }

  /** Half the size of a rotated rectangle's axis-aligned bounding box, widened by a padding. */
  datatype HalfExtents = HalfExtents(halfWidth: real, halfHeight: real)

  /**
   * The half-extents of a `w` by `h` rectangle turned by `degrees`, plus
   * `pad`: a quarter turn swaps the two axes, a half turn does not.
   */
  function RotatedHalfExtents(w: real, h: real, degrees: int, pad: real): (e: HalfExtents)
    requires QuarterTurn(degrees)
    ensures degrees == 0 || degrees == 180 ==> e == HalfExtents(w / 2.0 + pad, h / 2.0 + pad)
    ensures degrees == 90 || degrees == 270 ==> e == HalfExtents(h / 2.0 + pad, w / 2.0 + pad)
  {
    if degrees == 90 || degrees == 270 then HalfExtents(h / 2.0 + pad, w / 2.0 + pad)
    else HalfExtents(w / 2.0 + pad, h / 2.0 + pad)
  }

  /**
   * The case split agrees with the trigonometric form the widget evaluates:
   * `(w/2)|cos| + (h/2)|sin| + pad` and `(w/2)|sin| + (h/2)|cos| + pad`.
   */
  lemma RotatedHalfExtentsMatchTrig(w: real, h: real, degrees: int, pad: real)
    requires QuarterTurn(degrees)
    ensures var e := RotatedHalfExtents(w, h, degrees, pad);
            && e.halfWidth == w / 2.0 * Abs(Cos(degrees)) + h / 2.0 * Abs(Sin(degrees)) + pad
            && e.halfHeight == w / 2.0 * Abs(Sin(degrees)) + h / 2.0 * Abs(Cos(degrees)) + pad
  {
  }

  /**
   * The half-extents are those of the rotated rectangle's bounding box: each
   * of the four corners of a centred `w` by `h` rectangle, turned by
   * `degrees`, lands exactly `halfWidth - pad` and `halfHeight - pad` away
   * from the centre along the two axes.
   */
  lemma RotatedCornersWithinHalfExtents(w: real, h: real, degrees: int, pad: real, sx: real, sy: real)
    requires QuarterTurn(degrees)
    requires w >= 0.0 && h >= 0.0
    requires sx == 1.0 || sx == -1.0
    requires sy == 1.0 || sy == -1.0
    ensures var q := Place(Point(0.0, 0.0), degrees, Point(sx * w / 2.0, sy * h / 2.0));
            var e := RotatedHalfExtents(w, h, degrees, pad);
            Abs(q.x) == e.halfWidth - pad && Abs(q.y) == e.halfHeight - pad
  {
    var u, v := sx * w / 2.0, sy * h / 2.0;
    assert Abs(u) == w / 2.0 && Abs(v) == h / 2.0;
    var q := Place(Point(0.0, 0.0), degrees, Point(u, v));
    if degrees == 0 {
      assert q == Point(u, v);
    } else if degrees == 90 {
      assert q == Point(-v, u);
    } else if degrees == 180 {
      assert q == Point(-u, -v);
    } else {
      assert q == Point(v, -u);
    }
  }
}

=== FILE: image.dfy ===
/**
 * The image transform engine (image-behavior.js): contain-fit centring, the
 * rotated-bounds clamp with its memo cache, one-finger pan, two-finger
 * pinch, quarter-turn rotation and reset. Every handler is a pure step over
 * an explicit `ImageState`.
 */
module Image {
  import opened Optional
  import opened Geometry
  import Crop

  const MaxScale: real := 5.0
  /** The smallest zoom is this fraction of the whole-canvas fit. */
  const MinScaleFactor: real := 0.5
  /** Pan deltas below this on both axes are treated as jitter. */
  const TouchThreshold: real := 1.0
  const RotateStep: nat := 90

  /** Memoised rotated half-extents and the key they were computed for. */
  datatype CacheEntry = CacheEntry(rotation: nat, scale: real, imageWidth: real, imageHeight: real, extents: HalfExtents)

  /** Image-gesture state: the loaded image, its placement and the touch session. */
  datatype ImageState = ImageState(
    image: Option<ImageSize>,
    t: Transform,
    touchStart: Option<seq<Point>>,
    lastTouches: Option<seq<Point>>,
    isDraggingImage: bool,
    isScaling: bool,
    cache: Option<CacheEntry>)

  /** The behaviour's initial data: no image, scale 1, rotation 0. */
  const InitialImage: ImageState := ImageState(None, Transform(0.0, 0.0, 1.0, 0), None, None, false, false, None)

  /**
   * `_centerImage`: the largest scale of at most 1 at which the image fits
   * the canvas less the padding, centred on the canvas. Skipped without an
   * image or before the canvas has been measured.
   */
  function CenterImage(cfg: Config, s: ImageState): (r: ImageState)
    ensures s.image.None? || cfg.canvasWidth == 0.0 || cfg.canvasHeight == 0.0 ==> r == s
    ensures s.image.Some? && cfg.canvasWidth != 0.0 && cfg.canvasHeight != 0.0 ==>
              var iw, ih := s.image.value.width, s.image.value.height;
              && r.t.x == cfg.canvasWidth / 2.0 && r.t.y == cfg.canvasHeight / 2.0
              && r.t.scale <= 1.0
              && iw * r.t.scale <= cfg.canvasWidth - cfg.imagePadding
              && ih * r.t.scale <= cfg.canvasHeight - cfg.imagePadding
              && (r.t.scale == 1.0 || iw * r.t.scale == cfg.canvasWidth - cfg.imagePadding ||
                  ih * r.t.scale == cfg.canvasHeight - cfg.imagePadding)
              && r.cache.None?
    ensures r.image == s.image && r.t.rotation == s.t.rotation
    ensures r.touchStart == s.touchStart && r.lastTouches == s.lastTouches
    ensures r.isDraggingImage == s.isDraggingImage && r.isScaling == s.isScaling
  {
    if s.image.None? || cfg.canvasWidth == 0.0 || cfg.canvasHeight == 0.0 then s
    else
      var iw, ih := s.image.value.width, s.image.value.height;
      var scaleX := (cfg.canvasWidth - cfg.imagePadding) / iw;
      var scaleY := (cfg.canvasHeight - cfg.imagePadding) / ih;
      var scale := Min(Min(scaleX, scaleY), 1.0);
      assert iw * scale <= iw * scaleX == cfg.canvasWidth - cfg.imagePadding;
      assert ih * scale <= ih * scaleY == cfg.canvasHeight - cfg.imagePadding;
      s.(t := Transform(cfg.canvasWidth / 2.0, cfg.canvasHeight / 2.0, scale, s.t.rotation), cache := None)
  }

  /** The worked example: 1000 by 500 in a 350 by 350 canvas with padding 40. */
  lemma CenterImageExample(s: ImageState)
    requires s.image.Some? && s.image.value == Size(1000.0, 500.0)
    ensures var r := CenterImage(Config(350.0, 350.0, 350.0, 350.0, 0.0, 40.0), s);
            r.t.scale == 0.31 && r.t.x == 175.0 && r.t.y == 175.0
  {
  }

  /** The rotated half-extents of the drawn image, including the boundary padding, computed afresh. */
  function FreshExtents(cfg: Config, image: ImageSize, t: Transform): HalfExtents
    requires QuarterTurn(t.rotation)
  {
    RotatedHalfExtents(image.width * t.scale, image.height * t.scale, t.rotation, cfg.boundaryPadding)
  }

  /** The cache is keyed by rotation, scale and image size (not by the padding). */
  predicate CacheHit(s: ImageState) {
    && s.image.Some? && s.cache.Some?
    && s.cache.value.rotation == s.t.rotation
    && s.cache.value.scale == s.t.scale
    && s.cache.value.imageWidth == s.image.value.width
    && s.cache.value.imageHeight == s.image.value.height
  }

  /** A cached entry holds exactly what a fresh computation for its key gives. */
  predicate CacheValid(cfg: Config, s: ImageState) {
    s.cache.Some? ==>
      var c := s.cache.value;
      && QuarterTurn(c.rotation)
      && c.extents == RotatedHalfExtents(c.imageWidth * c.scale, c.imageHeight * c.scale, c.rotation, cfg.boundaryPadding)
  }

  /**
   * The extents the clamp works with: the cached ones on a key match, fresh
   * ones otherwise. With a valid cache the two always agree.
   */
  function ClampExtents(cfg: Config, s: ImageState): (e: HalfExtents)
    requires s.image.Some? && QuarterTurn(s.t.rotation)
    ensures CacheValid(cfg, s) ==> e == FreshExtents(cfg, s.image.value, s.t)
  {
    if CacheHit(s) then
      var c := s.cache.value;
      assert c.imageWidth * c.scale == s.image.value.width * s.t.scale;
      assert c.imageHeight * c.scale == s.image.value.height * s.t.scale;
      c.extents
    else FreshExtents(cfg, s.image.value, s.t)
  }

  /** The centre pulled at least the half-extents away from every canvas edge. */
  function ClampCentre(cfg: Config, t: Transform, e: HalfExtents): (r: Transform)
    ensures r.scale == t.scale && r.rotation == t.rotation
    ensures 2.0 * e.halfWidth <= cfg.canvasWidth ==> e.halfWidth <= r.x <= cfg.canvasWidth - e.halfWidth
    ensures 2.0 * e.halfHeight <= cfg.canvasHeight ==> e.halfHeight <= r.y <= cfg.canvasHeight - e.halfHeight
    ensures e.halfWidth <= t.x <= cfg.canvasWidth - e.halfWidth ==> r.x == t.x
    ensures e.halfHeight <= t.y <= cfg.canvasHeight - e.halfHeight ==> r.y == t.y
  {
    t.(x := ClampTo(t.x, e.halfWidth, cfg.canvasWidth - e.halfWidth),
       y := ClampTo(t.y, e.halfHeight, cfg.canvasHeight - e.halfHeight))
  }

  /**
   * `_clampImagePosition`: keeps the centre at least the rotated half-extent
   * away from every canvas edge, using the cached extents on a key match and
   * computing (and caching) them otherwise.
   */
  function ClampImagePosition(cfg: Config, s: ImageState): (r: ImageState)
    requires QuarterTurn(s.t.rotation)
    ensures s.image.None? ==> r == s
    ensures s.image.Some? && CacheValid(cfg, s) ==>
              r.t == ClampCentre(cfg, s.t, FreshExtents(cfg, s.image.value, s.t))
    ensures s.image.Some? && CacheValid(cfg, s) ==>
              var e := FreshExtents(cfg, s.image.value, s.t);
              && (2.0 * e.halfWidth <= cfg.canvasWidth ==> e.halfWidth <= r.t.x <= cfg.canvasWidth - e.halfWidth)
              && (2.0 * e.halfHeight <= cfg.canvasHeight ==> e.halfHeight <= r.t.y <= cfg.canvasHeight - e.halfHeight)
    ensures CacheValid(cfg, s) ==> CacheValid(cfg, r)
    ensures s.image.Some? ==> CacheHit(r)
    ensures r.image == s.image && r.t.scale == s.t.scale && r.t.rotation == s.t.rotation
    ensures r.touchStart == s.touchStart && r.lastTouches == s.lastTouches
    ensures r.isDraggingImage == s.isDraggingImage && r.isScaling == s.isScaling
  {
    match s.image
    case None => s
    case Some(img) =>
      // On a key match the entry rebuilt here is the one already cached.
      var e := ClampExtents(cfg, s);
      s.(t := ClampCentre(cfg, s.t, e),
         cache := Some(CacheEntry(s.t.rotation, s.t.scale, img.width, img.height, e)))
  }

  /** Clamping twice is clamping once, whatever the cache held. */
  lemma ClampImagePositionIdempotent(cfg: Config, s: ImageState)
    requires QuarterTurn(s.t.rotation)
    ensures ClampImagePosition(cfg, ClampImagePosition(cfg, s)) == ClampImagePosition(cfg, s)
  {
    var r := ClampImagePosition(cfg, s);
    if s.image.Some? {
      var e := ClampExtents(cfg, s);
      assert CacheHit(r) && ClampExtents(cfg, r) == e;
      ClampToIdempotent(s.t.x, e.halfWidth, cfg.canvasWidth - e.halfWidth);
      ClampToIdempotent(s.t.y, e.halfHeight, cfg.canvasHeight - e.halfHeight);
    }
  }

  /** A valid cache never changes the outcome: clamping with it equals clamping with none. */
  lemma ClampImagePositionIgnoresValidCache(cfg: Config, s: ImageState)
    requires QuarterTurn(s.t.rotation)
    requires CacheValid(cfg, s)
    ensures ClampImagePosition(cfg, s).t == ClampImagePosition(cfg, s.(cache := None)).t
  {
  }

  /**
   * `_onImageTouchStart`: records the touches as both the session start and
   * the last frame; one finger starts a pan, two start a pinch, and more
   * leave the gesture flags as they were. No touches: nothing happens.
   */
  function ImageTouchStart(s: ImageState, touches: seq<Point>): (r: ImageState)
    ensures |touches| == 0 ==> r == s
    ensures |touches| > 0 ==> r.touchStart == Some(touches) && r.lastTouches == Some(touches)
    ensures |touches| == 1 ==> r.isDraggingImage && !r.isScaling
    ensures |touches| == 2 ==> r.isScaling && !r.isDraggingImage
    ensures |touches| > 2 ==> r.isDraggingImage == s.isDraggingImage && r.isScaling == s.isScaling
    ensures r.image == s.image && r.t == s.t && r.cache == s.cache
  {
    if |touches| == 0 then s
    else
      var s1 := s.(touchStart := Some(touches), lastTouches := Some(touches));
      if |touches| == 1 then s1.(isDraggingImage := true, isScaling := false)
      else if |touches| == 2 then s1.(isScaling := true, isDraggingImage := false)
      else s1
  }

  /** What a move frame amounts to. */
  datatype ImageMove = Ignored | Pan(dx: real, dy: real) | Pinch(ratio: real)

  /**
   * Classifies a move frame. A pan needs the pan flag and one finger, and a
   * delta of at least `TouchThreshold` on some axis; a pinch needs the pinch
   * flag, two fingers and a non-zero previous finger distance. Distances are
   * `sqrt(dx*dx + dy*dy)` with `sqrt` the host's square root. A previous
   * frame with too few touches would make the source throw before changing
   * anything, so it is ignored too.
   */
  function ClassifyMove(s: ImageState, touches: seq<Point>, sqrt: real -> real): (m: ImageMove)
    ensures m.Pan? ==> s.image.Some? && s.isDraggingImage && |touches| == 1 && s.lastTouches.Some? && |s.lastTouches.value| >= 1
    ensures m.Pan? ==> m.dx == touches[0].x - s.lastTouches.value[0].x && m.dy == touches[0].y - s.lastTouches.value[0].y
    ensures m.Pan? ==> Abs(m.dx) >= TouchThreshold || Abs(m.dy) >= TouchThreshold
    ensures m.Pinch? ==> s.image.Some? && s.isScaling && |touches| == 2 && s.lastTouches.Some? && |s.lastTouches.value| >= 2
    ensures m.Pinch? ==> var last := s.lastTouches.value;
                         var lastDistance := sqrt(SquaredDistance(last[1], last[0]));
                         lastDistance > 0.0 && m.ratio == sqrt(SquaredDistance(touches[1], touches[0])) / lastDistance
    ensures s.image.Some? && s.lastTouches.Some? && s.isDraggingImage && |touches| == 1 && |s.lastTouches.value| >= 1 ==>
              var dx := touches[0].x - s.lastTouches.value[0].x;
              var dy := touches[0].y - s.lastTouches.value[0].y;
              (Abs(dx) >= TouchThreshold || Abs(dy) >= TouchThreshold ==> m == Pan(dx, dy))
    ensures s.image.Some? && s.lastTouches.Some? && s.isScaling && |touches| == 2 && |s.lastTouches.value| >= 2 ==>
              var last := s.lastTouches.value;
              var lastDistance := sqrt(SquaredDistance(last[1], last[0]));
              (lastDistance > 0.0 ==> m == Pinch(sqrt(SquaredDistance(touches[1], touches[0])) / lastDistance))
  {
    if s.lastTouches.None? || s.image.None? then Ignored
    else
      var last := s.lastTouches.value;
      if s.isDraggingImage && |touches| == 1 then
        if |last| < 1 then Ignored
        else
          var dx := touches[0].x - last[0].x;
          var dy := touches[0].y - last[0].y;
          if Abs(dx) < TouchThreshold && Abs(dy) < TouchThreshold then Ignored else Pan(dx, dy)
      else if s.isScaling && |touches| == 2 then
        if |last| < 2 then Ignored
        else
          var currentDistance := sqrt(SquaredDistance(touches[1], touches[0]));
          var lastDistance := sqrt(SquaredDistance(last[1], last[0]));
          if lastDistance > 0.0 then Pinch(currentDistance / lastDistance) else Ignored
      else Ignored
  }

  /** A pan frame: the centre moves by the delta, then is clamped; the frame becomes the last one. */
  function PanImage(cfg: Config, s: ImageState, dx: real, dy: real, touches: seq<Point>): (r: ImageState)
    requires QuarterTurn(s.t.rotation)
    ensures s.image.Some? && CacheValid(cfg, s) ==>
              r.t == ClampCentre(cfg, s.t.(x := s.t.x + dx, y := s.t.y + dy), FreshExtents(cfg, s.image.value, s.t))
    ensures CacheValid(cfg, s) ==> CacheValid(cfg, r)
    ensures r.lastTouches == Some(touches)
    ensures r.image == s.image && r.t.scale == s.t.scale && r.t.rotation == s.t.rotation
    ensures r.touchStart == s.touchStart && r.isDraggingImage == s.isDraggingImage && r.isScaling == s.isScaling
  {
    var moved := s.(t := s.t.(x := s.t.x + dx, y := s.t.y + dy), lastTouches := Some(touches));
    assert moved.cache == s.cache && moved.image == s.image;
    assert moved.t.scale == s.t.scale && moved.t.rotation == s.t.rotation;
    assert CacheValid(cfg, moved) == CacheValid(cfg, s);
    assert s.image.Some? ==> FreshExtents(cfg, s.image.value, moved.t) == FreshExtents(cfg, s.image.value, s.t);
    ClampImagePosition(cfg, moved)
  }

  /** The zoom floor: half of the scale at which the whole image just fits the canvas. */
  function MinScale(cfg: Config, image: ImageSize): real {
    Min(cfg.canvasWidth / image.width, cfg.canvasHeight / image.height) * MinScaleFactor
  }

  /**
   * A pinch frame: the scale is multiplied by the ratio of finger distances
   * and clamped to `[MinScale, MaxScale]`; the position is not re-clamped
   * and the cache is dropped.
   */
  function PinchImage(cfg: Config, s: ImageState, ratio: real, touches: seq<Point>): (r: ImageState)
    requires s.image.Some?
    ensures MinScale(cfg, s.image.value) <= r.t.scale
    ensures MinScale(cfg, s.image.value) <= MaxScale ==> r.t.scale <= MaxScale
    ensures MinScale(cfg, s.image.value) <= s.t.scale * ratio <= MaxScale ==> r.t.scale == s.t.scale * ratio
    ensures MinScale(cfg, s.image.value) <= MaxScale <= s.t.scale * ratio ==> r.t.scale == MaxScale
    ensures s.t.scale * ratio <= MinScale(cfg, s.image.value) ==> r.t.scale == MinScale(cfg, s.image.value)
    ensures MaxScale < MinScale(cfg, s.image.value) ==> r.t.scale == MinScale(cfg, s.image.value)
    ensures r.t.x == s.t.x && r.t.y == s.t.y && r.t.rotation == s.t.rotation
    ensures r.cache.None? && r.lastTouches == Some(touches)
    ensures r.image == s.image && r.touchStart == s.touchStart
    ensures r.isDraggingImage == s.isDraggingImage && r.isScaling == s.isScaling
  {
    var scale := ClampTo(s.t.scale * ratio, MinScale(cfg, s.image.value), MaxScale);
    s.(t := s.t.(scale := scale), lastTouches := Some(touches), cache := None)
  }

  /**
   * An image smaller than a tenth of the canvas on both sides has a floor
   * above the ceiling: a 30 by 30 image on a 350 by 350 canvas has floor
   * 35/6, and every pinch frame, spreading or closing, lands on it.
   */
  lemma PinchSmallImageSnapsToFloor(s: ImageState, ratio: real, touches: seq<Point>)
    requires s.image.Some? && s.image.value == Size(30.0, 30.0)
    ensures var cfg := Config(350.0, 350.0, 350.0, 350.0, 0.0, 40.0);
            && MinScale(cfg, s.image.value) == 35.0 / 6.0 > MaxScale
            && PinchImage(cfg, s, ratio, touches).t.scale == 35.0 / 6.0
  {
  }

  /** `_onImageTouchMove`: applies the classified frame. */
  function ImageTouchMove(cfg: Config, s: ImageState, touches: seq<Point>, sqrt: real -> real): (r: ImageState)
    requires QuarterTurn(s.t.rotation)
    ensures ClassifyMove(s, touches, sqrt).Ignored? ==> r == s
    ensures ClassifyMove(s, touches, sqrt).Pan? ==>
              var m := ClassifyMove(s, touches, sqrt);
              r == PanImage(cfg, s, m.dx, m.dy, touches)
    ensures ClassifyMove(s, touches, sqrt).Pinch? ==>
              r == PinchImage(cfg, s, ClassifyMove(s, touches, sqrt).ratio, touches)
    ensures r.image == s.image && r.t.rotation == s.t.rotation && r.touchStart == s.touchStart
    ensures r.isDraggingImage == s.isDraggingImage && r.isScaling == s.isScaling
  {
    match ClassifyMove(s, touches, sqrt)
    case Ignored => s
    case Pan(dx, dy) => PanImage(cfg, s, dx, dy, touches)
    case Pinch(ratio) => PinchImage(cfg, s, ratio, touches)
  }

  /** A pan frame below the jitter threshold on both axes changes nothing, not even the last frame. */
  lemma JitterIsIgnored(cfg: Config, s: ImageState, p: Point, sqrt: real -> real)
    requires QuarterTurn(s.t.rotation)
    requires s.isDraggingImage && s.lastTouches.Some? && |s.lastTouches.value| >= 1
    requires Abs(p.x - s.lastTouches.value[0].x) < TouchThreshold
    requires Abs(p.y - s.lastTouches.value[0].y) < TouchThreshold
    ensures ImageTouchMove(cfg, s, [p], sqrt) == s
  {
  }

  /**
   * The worked pinch: fingers 100 apart, then 200 apart, at scale 1 in a
   * 350 by 350 canvas with a 1000 by 500 image, give scale 2.
   */
  lemma PinchExample(s: ImageState, sqrt: real -> real)
    requires s.image.Some? && s.image.value == Size(1000.0, 500.0) && s.t.scale == 1.0 && QuarterTurn(s.t.rotation)
    requires s.isScaling && !s.isDraggingImage
    requires s.lastTouches == Some([Point(0.0, 0.0), Point(100.0, 0.0)])
    requires sqrt(10000.0) == 100.0 && sqrt(40000.0) == 200.0
    ensures var r := ImageTouchMove(Config(350.0, 350.0, 350.0, 350.0, 0.0, 40.0), s,
                                    [Point(0.0, 0.0), Point(200.0, 0.0)], sqrt);
            r.t.scale == 2.0 && r.t.x == s.t.x && r.t.y == s.t.y && r.t.rotation == s.t.rotation
  {
    var touches := [Point(0.0, 0.0), Point(200.0, 0.0)];
    assert SquaredDistance(touches[1], touches[0]) == 40000.0;
    assert SquaredDistance(s.lastTouches.value[1], s.lastTouches.value[0]) == 10000.0;
  }

  /** `_onImageTouchEnd`: the session is discarded; the placement stays. */
  function ImageTouchEnd(s: ImageState): (r: ImageState)
    ensures !r.isDraggingImage && !r.isScaling && r.touchStart.None? && r.lastTouches.None?
    ensures r.image == s.image && r.t == s.t && r.cache == s.cache
  {
    s.(isDraggingImage := false, isScaling := false, touchStart := None, lastTouches := None)
  }

  /** A session is a pan or a pinch, never both, and its last frame has the fingers it needs. */
  predicate TouchesConsistent(s: ImageState) {
    && !(s.isDraggingImage && s.isScaling)
    && (s.isDraggingImage ==> s.lastTouches.Some? && |s.lastTouches.value| >= 1)
    && (s.isScaling ==> s.lastTouches.Some? && |s.lastTouches.value| >= 2)
  }

  /** Rotation step: a quarter turn clockwise, degrees taken mod 360. */
  function NextRotation(degrees: nat): (r: nat)
    ensures QuarterTurn(degrees) ==> QuarterTurn(r)
    ensures r < 360
    ensures degrees < 360 ==> (r + 360 - degrees) % 360 == 90
  {
    (degrees + RotateStep) % 360
  }

  /** Four quarter turns bring any angle below 360 back to itself. */
  lemma FourTurnsAreIdentity(degrees: nat)
    requires degrees < 360
    ensures NextRotation(NextRotation(NextRotation(NextRotation(degrees)))) == degrees
  {
  }

  /**
   * `_rotateImage`: without an image nothing changes; otherwise the
   * rotation advances a quarter turn, the cache is dropped and the position
   * is re-clamped for the new orientation.
   */
  function RotateImage(cfg: Config, s: ImageState): (r: ImageState)
    requires QuarterTurn(s.t.rotation)
    ensures s.image.None? ==> r == s
    ensures s.image.Some? ==> r.t.rotation == NextRotation(s.t.rotation)
    ensures QuarterTurn(r.t.rotation)
    ensures s.image.Some? || CacheValid(cfg, s) ==> CacheValid(cfg, r)
    ensures s.image.Some? ==>
              r.t == ClampCentre(cfg, s.t.(rotation := r.t.rotation), FreshExtents(cfg, s.image.value, r.t))
    ensures r.image == s.image && r.t.scale == s.t.scale
    ensures r.touchStart == s.touchStart && r.lastTouches == s.lastTouches
    ensures r.isDraggingImage == s.isDraggingImage && r.isScaling == s.isScaling
  {
    match s.image
    case None => s
    case Some(img) =>
      // With the cache dropped, the clamp computes the extents afresh and caches them.
      var next := NextRotation(s.t.rotation);
      var e := FreshExtents(cfg, img, s.t.(rotation := next));
      var t := ClampCentre(cfg, s.t.(rotation := next), e);
      assert FreshExtents(cfg, img, t) == e;
      s.(t := t, cache := Some(CacheEntry(next, s.t.scale, img.width, img.height, e)))
  }

  /** The rotation is the turn followed by `_clampImagePosition` with the cache dropped. */
  lemma RotateImageIsClampAfterTurn(cfg: Config, s: ImageState)
    requires QuarterTurn(s.t.rotation) && s.image.Some?
    ensures RotateImage(cfg, s) ==
            ClampImagePosition(cfg, s.(t := s.t.(rotation := NextRotation(s.t.rotation)), cache := None))
  {
    var turned := s.(t := s.t.(rotation := NextRotation(s.t.rotation)), cache := None);
    assert ClampExtents(cfg, turned) == FreshExtents(cfg, s.image.value, turned.t);
  }

  /** A rotation leaves alone a position already clamped for the new orientation. */
  lemma RotateKeepsClampedPosition(cfg: Config, s: ImageState)
    requires QuarterTurn(s.t.rotation) && s.image.Some?
    requires var e := FreshExtents(cfg, s.image.value, s.t.(rotation := NextRotation(s.t.rotation)));
             && e.halfWidth <= s.t.x <= cfg.canvasWidth - e.halfWidth
             && e.halfHeight <= s.t.y <= cfg.canvasHeight - e.halfHeight
    ensures RotateImage(cfg, s).t == s.t.(rotation := NextRotation(s.t.rotation))
  {
  }

  /** Opposite orientations have the same extents. */
  lemma HalfTurnKeepsExtents(cfg: Config, image: ImageSize, t: Transform)
    requires QuarterTurn(t.rotation)
    ensures FreshExtents(cfg, image, t.(rotation := NextRotation(NextRotation(t.rotation)))) == FreshExtents(cfg, image, t)
  {
    var w, h := image.width * t.scale, image.height * t.scale;
    assert FreshExtents(cfg, image, t) == RotatedHalfExtents(w, h, t.rotation, cfg.boundaryPadding);
  }

  /**
   * Four rotations restore the rotation and scale, and a position that is
   * already clamped for both orientations comes back unchanged.
   */
  lemma FourRotationsRestore(cfg: Config, s: ImageState)
    requires QuarterTurn(s.t.rotation) && s.image.Some?
    requires var e := FreshExtents(cfg, s.image.value, s.t);
             && e.halfWidth <= s.t.x <= cfg.canvasWidth - e.halfWidth
             && e.halfHeight <= s.t.y <= cfg.canvasHeight - e.halfHeight
    requires var e := FreshExtents(cfg, s.image.value, s.t.(rotation := NextRotation(s.t.rotation)));
             && e.halfWidth <= s.t.x <= cfg.canvasWidth - e.halfWidth
             && e.halfHeight <= s.t.y <= cfg.canvasHeight - e.halfHeight
    ensures var r := RotateImage(cfg, RotateImage(cfg, RotateImage(cfg, RotateImage(cfg, s))));
            r.t == s.t && r.image == s.image
  {
    var img := s.image.value;
    var r0 := s.t.rotation;
    var r1 := NextRotation(r0);
    var r2 := NextRotation(r1);
    var r3 := NextRotation(r2);
    FourTurnsAreIdentity(r0);
    var s1 := RotateImage(cfg, s);
    RotateKeepsClampedPosition(cfg, s);
    assert s1.t == s.t.(rotation := r1) && s1.image == s.image;
    var s2 := RotateImage(cfg, s1);
    HalfTurnKeepsExtents(cfg, img, s.t);
    assert s1.t.(rotation := r2) == s.t.(rotation := r2);
    RotateKeepsClampedPosition(cfg, s1);
    assert s2.t == s.t.(rotation := r2) && s2.image == s.image;
    var s3 := RotateImage(cfg, s2);
    HalfTurnKeepsExtents(cfg, img, s.t.(rotation := r1));
    assert s2.t.(rotation := r3) == s.t.(rotation := r1).(rotation := r3);
    RotateKeepsClampedPosition(cfg, s2);
    assert s3.t == s.t.(rotation := r3) && s3.image == s.image;
    assert s3.t.(rotation := r0) == s.t;
    RotateKeepsClampedPosition(cfg, s3);
  }

  /** Four rotations always restore the rotation, the scale and the image, wherever the centre was. */
  lemma FourRotationsRestoreOrientation(cfg: Config, s: ImageState)
    requires QuarterTurn(s.t.rotation)
    ensures var r := RotateImage(cfg, RotateImage(cfg, RotateImage(cfg, RotateImage(cfg, s))));
            r.t.rotation == s.t.rotation && r.t.scale == s.t.scale && r.image == s.image
  {
    FourTurnsAreIdentity(s.t.rotation);
  }

  /** One quarter turn of the 1000 by 500 example at scale 0.31 leaves or puts its centre at (175, 155). */
  lemma RotateExampleStep(s: ImageState)
    requires s.image.Some? && s.image.value == Size(1000.0, 500.0) && QuarterTurn(s.t.rotation)
    requires s.t.x == 175.0 && s.t.scale == 0.31
    requires s.t.y == 155.0 || (s.t.y == 100.0 && s.t.rotation == 0)
    ensures var r := RotateImage(Config(350.0, 350.0, 350.0, 350.0, 0.0, 40.0), s);
            r.image == s.image && r.t == Transform(175.0, 155.0, 0.31, NextRotation(s.t.rotation))
  {
    var cfg := Config(350.0, 350.0, 350.0, 350.0, 0.0, 40.0);
    var next := NextRotation(s.t.rotation);
    var e := FreshExtents(cfg, s.image.value, s.t.(rotation := next));
    if next == 90 || next == 270 {
      assert e == HalfExtents(77.5, 155.0);
    } else {
      assert e == HalfExtents(155.0, 77.5);
    }
    var r := RotateImage(cfg, s);
    assert FreshExtents(cfg, s.image.value, r.t) == e;
  }

  /** Two quarter turns of the example from a centre at y = 155 or from the start at (175, 100). */
  lemma RotateExampleTwice(s: ImageState)
    requires s.image.Some? && s.image.value == Size(1000.0, 500.0)
    requires s.t == Transform(175.0, 100.0, 0.31, 0) || s.t == Transform(175.0, 155.0, 0.31, 180)
    ensures var cfg := Config(350.0, 350.0, 350.0, 350.0, 0.0, 40.0);
            var r := RotateImage(cfg, RotateImage(cfg, s));
            r.image == s.image && r.t == Transform(175.0, 155.0, 0.31, NextRotation(NextRotation(s.t.rotation)))
  {
    var cfg := Config(350.0, 350.0, 350.0, 350.0, 0.0, 40.0);
    RotateExampleStep(s);
    RotateExampleStep(RotateImage(cfg, s));
  }

  /**
   * A centre that is in bounds only for the starting orientation does not
   * come back: a 1000 by 500 image at scale 0.31 centred at (175, 100) in a
   * 350 by 350 canvas is pushed down to y = 155 by the first quarter turn
   * and stays there.
   */
  lemma FourRotationsCanMoveCentre(s: ImageState)
    requires s.image.Some? && s.image.value == Size(1000.0, 500.0)
    requires s.t == Transform(175.0, 100.0, 0.31, 0)
    ensures var cfg := Config(350.0, 350.0, 350.0, 350.0, 0.0, 40.0);
            var r := RotateImage(cfg, RotateImage(cfg, RotateImage(cfg, RotateImage(cfg, s))));
            r.t == Transform(175.0, 155.0, 0.31, 0)
  {
    var cfg := Config(350.0, 350.0, 350.0, 350.0, 0.0, 40.0);
    assert NextRotation(NextRotation(0)) == 180 && NextRotation(NextRotation(180)) == 0;
    RotateExampleTwice(s);
    var half := RotateImage(cfg, RotateImage(cfg, s));
    assert half.image == s.image && half.t == Transform(175.0, 155.0, 0.31, 180);
    RotateExampleTwice(half);
  }

  /**
   * `_resetImage`: without an image nothing changes. Otherwise the image is
   * re-centred exactly as `CenterImage` does, the crop box is initialised
   * from that placement while the old rotation is still in force, and only
   * then is the rotation cleared (with the cache).
   */
  function ResetImage(cfg: Config, s: ImageState, box: Rect): (r: (ImageState, Rect))
    requires QuarterTurn(s.t.rotation)
    ensures s.image.None? ==> r == (s, box)
    ensures s.image.Some? ==>
              var centred := CenterImage(cfg, s);
              && r.0.t == centred.t.(rotation := 0)
              && r.0.cache.None?
              && r.1 == Crop.InitCropBox(s.image, centred.t, Size(cfg.canvasWidth, cfg.canvasHeight), box)
    ensures s.image.Some? ==> WithinCanvas(r.1, cfg.canvasWidth, cfg.canvasHeight)
    ensures r.0.image == s.image && r.0.touchStart == s.touchStart && r.0.lastTouches == s.lastTouches
    ensures r.0.isDraggingImage == s.isDraggingImage && r.0.isScaling == s.isScaling
  {
    if s.image.None? then (s, box)
    else
      var centred := CenterImage(cfg, s);
      var box' := Crop.InitCropBox(centred.image, centred.t, Size(cfg.canvasWidth, cfg.canvasHeight), box);
      (centred.(t := centred.t.(rotation := 0), cache := None), box')
  }

  /** Reset from rotation 0 or 180 is idempotent. */
  lemma ResetIdempotentFromHalfTurns(cfg: Config, s: ImageState, box: Rect)
    requires s.t.rotation == 0 || s.t.rotation == 180
    ensures var r := ResetImage(cfg, s, box);
            ResetImage(cfg, r.0, r.1) == r
  {
    var r := ResetImage(cfg, s, box);
    if s.image.Some? {
      var img := s.image.value;
      var c1 := CenterImage(cfg, s);
      var c2 := CenterImage(cfg, r.0);
      assert c2 == r.0;
      assert c2.t == c1.t.(rotation := 0);
      Crop.InitCropBoxHalfTurnInvariant(img, c1.t, Size(cfg.canvasWidth, cfg.canvasHeight), box, r.1);
    }
  }

  /**
   * Reset from a quarter turn is not idempotent: the first reset places the
   * crop box with the swapped extents, the second with the unswapped ones.
   * Here a 1000 by 500 image at rotation 90 in a 350 by 350 canvas.
   */
  lemma ResetNotIdempotentFromQuarterTurn(s: ImageState, box: Rect)
    requires s.image.Some? && s.image.value == Size(1000.0, 500.0) && s.t.rotation == 90
    ensures var cfg := Config(350.0, 350.0, 350.0, 350.0, 0.0, 40.0);
            var r1 := ResetImage(cfg, s, box);
            var r2 := ResetImage(cfg, r1.0, r1.1);
            && r1.1 == Rect(40.0, 20.0, 310.0, 155.0)
            && r2.1 == Rect(20.0, 97.5, 310.0, 155.0)
            && r1.0.t == r2.0.t
            && r1.1 != Crop.ImageBounds(s.image.value, r1.0.t)
  {
    var cfg := Config(350.0, 350.0, 350.0, 350.0, 0.0, 40.0);
    CenterImageExample(s);
    var r1 := ResetImage(cfg, s, box);
    CenterImageExample(r1.0);
  }

  /**
   * The reset with the rotation cleared before the image is centred and the
   * crop box placed, so the box is computed for the orientation the image
   * is drawn in.
   */
  function ResetImageCorrected(cfg: Config, s: ImageState, box: Rect): (r: (ImageState, Rect))
    ensures s.image.None? ==> r == (s, box)
    ensures s.image.Some? ==>
              && r.0.t.rotation == 0 && r.0.cache.None?
              && r.0.t == CenterImage(cfg, s.(t := s.t.(rotation := 0))).t
              && r.1 == Crop.InitCropBox(s.image, r.0.t, Size(cfg.canvasWidth, cfg.canvasHeight), box)
              && WithinCanvas(r.1, cfg.canvasWidth, cfg.canvasHeight)
    ensures r.0.image == s.image && r.0.touchStart == s.touchStart && r.0.lastTouches == s.lastTouches
    ensures r.0.isDraggingImage == s.isDraggingImage && r.0.isScaling == s.isScaling
  {
    if s.image.None? then (s, box)
    else
      var upright := s.(t := s.t.(rotation := 0), cache := None);
      var centred := CenterImage(cfg, upright);
      (centred, Crop.InitCropBox(centred.image, centred.t, Size(cfg.canvasWidth, cfg.canvasHeight), box))
  }

  /**
   * After the corrected reset the crop box is exactly the drawn image's
   * bounds, whatever the rotation was.
   */
  lemma ResetImageCorrectedFitsImage(cfg: Config, s: ImageState, box: Rect)
    requires s.image.Some? && cfg.canvasWidth != 0.0 && cfg.canvasHeight != 0.0 && cfg.imagePadding >= 0.0
    ensures var r := ResetImageCorrected(cfg, s, box);
            r.1 == Crop.ImageBounds(s.image.value, r.0.t)
  {
    var r := ResetImageCorrected(cfg, s, box);
    var img := s.image.value;
    var b := Crop.ImageBounds(img, r.0.t);
    assert b.width <= cfg.canvasWidth && b.height <= cfg.canvasHeight;
    assert WithinCanvas(b, cfg.canvasWidth, cfg.canvasHeight);
    Crop.InitCropBoxFitsImage(img, r.0.t, Size(cfg.canvasWidth, cfg.canvasHeight), box);
  }

  /** The corrected reset is idempotent from every rotation. */
  lemma ResetImageCorrectedIdempotent(cfg: Config, s: ImageState, box: Rect)
    ensures var r := ResetImageCorrected(cfg, s, box);
            ResetImageCorrected(cfg, r.0, r.1) == r
  {
    var r := ResetImageCorrected(cfg, s, box);
    if s.image.Some? {
      assert r.0.(t := r.0.t.(rotation := 0), cache := None) == r.0;
      assert CenterImage(cfg, r.0).t == r.0.t;
    }
  }

  /** From rotation 0 or 180 the correction changes nothing. */
  lemma ResetImageCorrectedAgreesAtHalfTurns(cfg: Config, s: ImageState, box: Rect)
    requires s.t.rotation == 0 || s.t.rotation == 180
    ensures ResetImageCorrected(cfg, s, box) == ResetImage(cfg, s, box)
  {
    if s.image.Some? {
      var r := ResetImage(cfg, s, box);
      var c := ResetImageCorrected(cfg, s, box);
      var centred := CenterImage(cfg, s);
      assert c.0.t == centred.t.(rotation := 0);
      assert c.0 == r.0;
      Crop.InitCropBoxHalfTurnInvariant(s.image.value, centred.t, Size(cfg.canvasWidth, cfg.canvasHeight), box, r.1);
    }
  }
}

=== FILE: optional.dfy ===
/** Failure-carrying wrappers used where the widget returns `null` or rejects. */
module Optional {

  /** A value that may be absent (the widget's `null`). */
  datatype Option<T> = None | Some(value: T)

  /** A value or the reason it could not be produced (a rejected promise). */
  datatype Result<T, E> = Ok(value: T) | Err(error: E)
}

=== FILE: render.dfy ===
/**
 * What one redraw paints (`_drawCanvas`, `_drawImage`, `_drawCropBox`), as
 * an ordered list of drawing operations. Colours, line widths and dashes
 * are styling and are not modelled; the geometry of every operation is.
 */
module Render {
  import opened Optional
  import opened Geometry
  import Crop
  import Image

  datatype DrawOp =
    | Clear(area: Size)
      /** The dashed border around the whole canvas. */
    | CanvasBorder(area: Size)
      /** The "choose an image" fill and text shown when no image is loaded. */
    | Placeholder(area: Size)
      /** The image drawn centred on `centre`, turned by `rotation`, at the drawn size. */
    | ImageBlit(centre: Point, rotation: nat, drawWidth: real, drawHeight: real)
      /** The translucent layer over the whole canvas. */
    | Mask(area: Size)
      /** The crop box punched out of the mask. */
    | CutOut(box: Rect)
    | Outline(box: Rect)
    | GridLine(from: Point, to: Point)
      /** A round corner handle. */
    | Handle(centre: Point, radius: real)

  /** The operations that belong to the crop overlay. */
  predicate IsOverlay(op: DrawOp) {
    op.Mask? || op.CutOut? || op.Outline? || op.GridLine? || op.Handle?
  }

  /** The mode value that selects the crop engine and shows the overlay; every other value is image mode. */
  const CropMode: string := "crop"

  function CanvasArea(cfg: Config): Size {
    Size(cfg.canvasWidth, cfg.canvasHeight)
  }

  /**
   * `_drawImage`: the canvas border, then either the placeholder or the
   * image about its centre at its scaled size.
   */
  function DrawImage(cfg: Config, img: Image.ImageState): (ops: seq<DrawOp>)
    ensures |ops| == 2 && ops[0] == CanvasBorder(CanvasArea(cfg))
    ensures img.image.None? <==> ops[1] == Placeholder(CanvasArea(cfg))
    ensures img.image.Some? ==>
              ops[1] == ImageBlit(Point(img.t.x, img.t.y), img.t.rotation,
                                  img.image.value.width * img.t.scale, img.image.value.height * img.t.scale)
    ensures forall k :: 0 <= k < |ops| ==> !IsOverlay(ops[k])
  {
    if img.image.None? then [CanvasBorder(CanvasArea(cfg)), Placeholder(CanvasArea(cfg))]
    else
      [CanvasBorder(CanvasArea(cfg)),
       ImageBlit(Point(img.t.x, img.t.y), img.t.rotation,
                 img.image.value.width * img.t.scale, img.image.value.height * img.t.scale)]
  }

  /**
   * The rule-of-thirds lines, vertical then horizontal for each third: the
   * vertical lines run the full height of the box, the horizontal ones its
   * full width, and together they cut each side into three equal parts.
   */
  function GridLines(b: Rect): (ops: seq<DrawOp>)
    ensures |ops| == 4 && forall k :: 0 <= k < 4 ==> ops[k].GridLine?
    ensures forall k :: k in {0, 2} ==>
              ops[k].from.x == ops[k].to.x && ops[k].from.y == b.y && ops[k].to.y == b.y + b.height
    ensures forall k :: k in {1, 3} ==>
              ops[k].from.y == ops[k].to.y && ops[k].from.x == b.x && ops[k].to.x == b.x + b.width
    ensures var x1, x2 := ops[0].from.x, ops[2].from.x;
            x1 - b.x == x2 - x1 == b.x + b.width - x2
    ensures var y1, y2 := ops[1].from.y, ops[3].from.y;
            y1 - b.y == y2 - y1 == b.y + b.height - y2
    ensures b.width > 0.0 ==> b.x < ops[0].from.x < ops[2].from.x < b.x + b.width
    ensures b.height > 0.0 ==> b.y < ops[1].from.y < ops[3].from.y < b.y + b.height
  {
    var x1, x2 := b.x + b.width / 3.0, b.x + 2.0 * b.width / 3.0;
    var y1, y2 := b.y + b.height / 3.0, b.y + 2.0 * b.height / 3.0;
    [GridLine(Point(x1, b.y), Point(x1, b.y + b.height)),
     GridLine(Point(b.x, y1), Point(b.x + b.width, y1)),
     GridLine(Point(x2, b.y), Point(x2, b.y + b.height)),
     GridLine(Point(b.x, y2), Point(b.x + b.width, y2))]
  }

  /**
   * One handle per corner, in the crop module's corner order, each centred
   * on its corner; a touch anywhere on a drawn handle lies within that
   * corner's hit zone.
   */
  function Handles(b: Rect): (ops: seq<DrawOp>)
    ensures |ops| == |Crop.CornerOrder|
    ensures forall k :: 0 <= k < |ops| ==>
              ops[k].Handle? && ops[k].centre == Crop.CornerPoint(b, Crop.CornerOrder[k]) && ops[k].radius == Crop.CornerSize
    ensures forall k, p :: 0 <= k < |ops| && SquaredDistance(p, ops[k].centre) <= ops[k].radius * ops[k].radius ==>
              Crop.Grabs(b, Crop.CornerOrder[k], p)
  {
    assert Crop.CornerSize * Crop.CornerSize <= Crop.HitRadius * Crop.HitRadius;
    seq(|Crop.CornerOrder|, k requires 0 <= k < |Crop.CornerOrder| =>
      Handle(Crop.CornerPoint(b, Crop.CornerOrder[k]), Crop.CornerSize))
  }

  /**
   * `_drawCropBox`: nothing without an image; otherwise the mask, the box
   * cut out of it, its outline, the grid lines and the four handles.
   */
  function DrawCropBox(cfg: Config, img: Image.ImageState, box: Rect): (ops: seq<DrawOp>)
    ensures img.image.None? <==> ops == []
    ensures img.image.Some? ==>
              && |ops| == 11
              && ops[0] == Mask(CanvasArea(cfg)) && ops[1] == CutOut(box) && ops[2] == Outline(box)
              && ops[3..7] == GridLines(box) && ops[7..] == Handles(box)
    ensures forall k :: 0 <= k < |ops| ==> IsOverlay(ops[k])
  {
    if img.image.None? then []
    else [Mask(CanvasArea(cfg)), CutOut(box), Outline(box)] + GridLines(box) + Handles(box)
  }

  /**
   * `_drawCanvas`: nothing before the canvas is ready; otherwise the canvas
   * is cleared, the image layer drawn, and the crop overlay drawn on top in
   * crop mode.
   */
  function DrawCanvas(ready: bool, mode: string, cfg: Config, img: Image.ImageState, box: Rect): (ops: seq<DrawOp>)
    ensures !ready <==> ops == []
    ensures ready ==> |ops| >= 3 && ops[0] == Clear(CanvasArea(cfg)) && ops[1..3] == DrawImage(cfg, img)
    ensures (exists k :: 0 <= k < |ops| && IsOverlay(ops[k])) <==> ready && mode == CropMode && img.image.Some?
    ensures ready && mode == CropMode ==> ops[3..] == DrawCropBox(cfg, img, box)
    ensures ready && mode != CropMode ==> ops == [Clear(CanvasArea(cfg))] + DrawImage(cfg, img)
    ensures forall i, j :: 0 <= i < |ops| && 0 <= j < |ops| && IsOverlay(ops[i]) && !IsOverlay(ops[j]) ==> j < i
  {
    if !ready then []
    else
      var base := [Clear(CanvasArea(cfg))] + DrawImage(cfg, img);
      var overlay := if mode == CropMode then DrawCropBox(cfg, img, box) else [];
      LayersInOrder(base, overlay);
      base + overlay
  }

  /** Appending an overlay-only list to an overlay-free one keeps every overlay operation last. */
  lemma LayersInOrder(base: seq<DrawOp>, overlay: seq<DrawOp>)
    requires forall k :: 0 <= k < |base| ==> !IsOverlay(base[k])
    requires forall k :: 0 <= k < |overlay| ==> IsOverlay(overlay[k])
    ensures var ops := base + overlay;
            && ((exists k :: 0 <= k < |ops| && IsOverlay(ops[k])) <==> |overlay| > 0)
            && forall i, j :: 0 <= i < |ops| && 0 <= j < |ops| && IsOverlay(ops[i]) && !IsOverlay(ops[j]) ==> j < i
  {
    var ops := base + overlay;
    assert forall k :: 0 <= k < |base| ==> ops[k] == base[k];
    assert forall k :: |base| <= k < |ops| ==> ops[k] == overlay[k - |base|];
    if |overlay| > 0 {
      assert IsOverlay(ops[|base|]);
    }
  }
}

=== FILE: throttle.dfy ===
/**
 * The redraw rate limiter (`_throttle` in image-cropper.js): a call runs the
 * wrapped function only when strictly more than `wait` milliseconds have
 * passed since the last run; calls inside the window are dropped, never
 * queued. The clock reading is an explicit parameter.
 */
module Throttle {

  /** The closure's state: the interval and the time of the last run (initially 0). */
  datatype Throttle = Throttle(wait: int, lastExecuteTime: int)

  /** The redraw interval, in milliseconds. */
  const DrawWait: int := 8

  function NewThrottle(wait: int): Throttle {
    Throttle(wait, 0)
  }

  /** The limiter after a call, and whether the wrapped function ran. */
  datatype Outcome = Outcome(next: Throttle, fired: bool)

  /** One call at time `now`. */
  function Call(th: Throttle, now: int): (o: Outcome)
    ensures o.fired <==> now - th.lastExecuteTime > th.wait
    ensures o.fired ==> o.next == Throttle(th.wait, now)
    ensures !o.fired ==> o.next == th
  {
    if now - th.lastExecuteTime > th.wait then Outcome(th.(lastExecuteTime := now), true)
    else Outcome(th, false)
  }

  /** The limiter after a sequence of calls. */
  function Run(th: Throttle, times: seq<int>): Throttle
    decreases |times|
  {
    if |times| == 0 then th else Run(Call(th, times[0]).next, times[1..])
  }

  /** The times, in call order, at which the wrapped function ran. */
  function Executed(th: Throttle, times: seq<int>): (e: seq<int>)
    ensures |e| <= |times|
    ensures forall k :: 0 <= k < |e| ==> e[k] in times
    decreases |times|
  {
    if |times| == 0 then []
    else
      var o := Call(th, times[0]);
      var rest := Executed(o.next, times[1..]);
      assert forall k :: 0 <= k < |rest| ==> rest[k] in times;
      (if o.fired then [times[0]] else []) + rest
  }

  /**
   * Dropped calls are never replayed: one more call adds at most itself to
   * the runs, and only when it is outside the window left by the earlier calls.
   */
  lemma {:induction false} ExecutedAppend(th: Throttle, times: seq<int>, t: int)
    ensures Executed(th, times + [t]) ==
            Executed(th, times) + (if Call(Run(th, times), t).fired then [t] else [])
    decreases |times|
  {
    if |times| == 0 {
      assert times + [t] == [t];
    } else {
      var o := Call(th, times[0]);
      assert (times + [t])[0] == times[0];
      assert (times + [t])[1..] == times[1..] + [t];
      ExecutedAppend(o.next, times[1..], t);
    }
  }

  /**
   * Any two runs are more than `wait` apart, and the first is more than
   * `wait` after the limiter's last run, whatever order the clock readings
   * come in.
   */
  lemma {:induction false} ExecutedSpaced(th: Throttle, times: seq<int>)
    requires th.wait >= 0
    ensures var e := Executed(th, times);
            && (|e| > 0 ==> e[0] - th.lastExecuteTime > th.wait)
            && forall i, j :: 0 <= i < j < |e| ==> e[j] - e[i] > th.wait
    decreases |times|
  {
    if |times| > 0 {
      var o := Call(th, times[0]);
      ExecutedSpaced(o.next, times[1..]);
      var rest := Executed(o.next, times[1..]);
      if o.fired {
        var e := [times[0]] + rest;
        assert Executed(th, times) == e;
        forall i, j | 0 <= i < j < |e|
          ensures e[j] - e[i] > th.wait
        {
          if i == 0 {
            assert e[j] == rest[j - 1];
            if j > 1 {
              assert rest[j - 1] - rest[0] > th.wait;
            }
          } else {
            assert e[i] == rest[i - 1] && e[j] == rest[j - 1];
          }
        }
      } else {
        assert Executed(th, times) == rest;
      }
    }
  }

  /** With the 8 ms draw interval, any two draws are more than 8 ms apart. */
  lemma DrawsAreSpaced(times: seq<int>)
    ensures var e := Executed(NewThrottle(DrawWait), times);
            forall i, j :: 0 <= i < j < |e| ==> e[j] - e[i] > 8
  {
    ExecutedSpaced(NewThrottle(DrawWait), times);
  }
}
